=== FILE: README.md ===
# RL trader, candle strategy and paper ledger — a Dafny model

This project models the decision and bookkeeping core of a small forex
trading repository. It has three parts.

- **The RL trader** (`TheSSS/R1_V/rl_trader.py`, the `RLTrader` class from line 96).
  - The history loader keeps the bars that pass an OHLC/volume sanity predicate. It then drops repeated timestamps, keeping the first survivor.
  - RSI is computed from the first 14 close deltas. MACD is the 12/26-span exponential-average difference.
  - The market-state builder is modelled, along with the NaN cleaner.
  - Action selection asks a local language model ("the oracle") for BUY/SELL/HOLD. When the reply is unusable it falls back to an RSI threshold rule.
  - The reward is a spread-adjusted pip move, sized by risk over volatility, risk-discounted and clipped to ±1000.
  - The training loop counts episodes, adds each reward to a running total and records an improvement event whenever the total beats its high-water mark. It triggers a model refresh every fifth episode. It cycles through the history until 1800 seconds have elapsed or an exception escapes.
- **The candle strategy** (`TheSSS/strategies/trading_strategy.py`).
  - The 40-period SMA, and resistance and support over 36 and 78 candles.
  - The three-candle BUY/SELL/HOLD rule.
  - The `TradeManager` order book: at most ten open trades, all at the price of the first, and a reversal closes them all.
- **The paper ledger** (`main.py`, `PaperTrading`): simulated fills against a cash balance.

Modules follow the program's structure:

| file | module | models |
|---|---|---|
| `common.dfy` | `Common` | `Option`, `Result`, the exception kinds (`Fault`), `Action` |
| `stats.dfy` | `Stats` | sums, means, max/min, `np.clip`, a modular-arithmetic fact |
| `bars.dfy` | `Bars` | bars and the load-time filter |
| `indicators.dfy` | `Indicators` | RSI and MACD |
| `market_state.dfy` | `MarketStates` | `get_market_state`, `clean_state` |
| `policy.dfy` | `Policy` | reply normalisation, fallback rule, `get_action` |
| `reward.dfy` | `Rewards` | `calculate_reward` |
| `training.dfy` | `Training` | `train`, `retrain_model` gating, `run_trading` |
| `trade_manager.dfy` | `Orders` | `TradeManager` |
| `candles.dfy` | `Candles` | SMA, resistance, support, `evaluate_trade_signal` |
| `paper_trading.dfy` | `Paper` | `PaperTrading` |

Behaviour of the code worth noting:

- **No completed state.** A session never reaches a "completed" state of its own. It runs until the time limit or a failure.
- **Cap before price.** `can_enter_trade` checks the order cap before the price.
- **`get_action` can raise.** Only a non-zero exit and a timeout of the oracle are swallowed. Any other failure propagates and ends the session. An empty history would divide by zero, though the loop never calls it on one.
- **Fixed spread.** The state's spread is always the constant 0.0002. There is no per-bar spread column.
- **Strictly rising improvements.** Improvement totals are strictly increasing, because each one raises the high-water mark.
- **First 14 deltas.** RSI uses the first 14 deltas of the whole close column, not the latest ones. It is the same for every row.

Training scores an episode on two states built from the same row, so the price never moves. A hold scores the default −0.1. A buy or sell pays the spread and cost. With the default configuration, no episode reward is positive. From a fresh trader the session therefore never records an improvement (`Training.DefaultRunNeverImproves`).

Inputs the model cannot compute are parameters:

- **`Tick`.** Each processed bar receives one `Tick`. It carries:
  - the elapsed seconds read by the loop's clock check;
  - the oracle's reply (`Replied(stdout)`, `NonZeroExit`, `TimedOut` or `Crashed`);
  - the volatility estimate, where `None` stands for the missing method (see Findings).
- **`RewardConfig`.** The environment variables read by the reward, with the source defaults in `Rewards.DefaultConfig`.
- **Position time.** The wall-clock time of a paper position is passed in.

Floats are modelled as reals. NaN appears only where the code reacts to it (`clean_state`).

## Model

| member | source | states |
|---|---|---|
| Bars.FilterValid | TheSSS/R1_V/rl_trader.py:141-149 | a bar is kept iff it is in the input and passes all seven OHLC/volume conditions; every kept bar is valid |
| Bars.Dedupe | TheSSS/R1_V/rl_trader.py:151 | the result has pairwise distinct timestamps, covers exactly the input's timestamps, and holds only input bars |
| Bars.LoadFilter | TheSSS/R1_V/rl_trader.py:141-151 | loaded bars are valid, have distinct timestamps, come from the input, and every timestamp that had a valid bar is represented |
| Bars.LoadFilterKeepsFirstValid | TheSSS/R1_V/rl_trader.py:141-151 | filter-then-dedupe equals the reference selection "first valid bar of each timestamp, in input order" |
| Bars.FirstValidLast | TheSSS/R1_V/rl_trader.py:141-151 | a valid last bar is the first valid bar of its timestamp iff no earlier valid bar carries that timestamp |
| Bars.KeepFirstValidMembers | TheSSS/R1_V/rl_trader.py:141-151 | the reference selection holds a bar iff it sits at an index that is the first valid one of its timestamp |
| Bars.EarlierInvalidDuplicateDoesNotShadow | TheSSS/R1_V/rl_trader.py:141-151 | an invalid bar at a timestamp does not suppress a later valid bar at the same timestamp |
| Bars.Closes | TheSSS/R1_V/rl_trader.py:357 | the close column has one entry per bar, in order |
| Indicators.Deltas | TheSSS/R1_V/rl_trader.py:358 | consecutive differences: one fewer than the closes (none for an empty column), entry i is close[i+1] - close[i] |
| Indicators.NonNegatives | TheSSS/R1_V/rl_trader.py:364 | the selection holds every value >= 0 exactly as many times as the input does, and no other value |
| Indicators.Negatives | TheSSS/R1_V/rl_trader.py:365 | the selection holds every value < 0 exactly as many times as the input does, and no other value |
| Indicators.UpAverage | TheSSS/R1_V/rl_trader.py:367 | the mean gain is never negative |
| Indicators.DownAverage | TheSSS/R1_V/rl_trader.py:368 | the loss magnitude is always positive, so the division by it never fails |
| Indicators.RsiOfStrength | TheSSS/R1_V/rl_trader.py:370-371 | for a non-negative relative strength the RSI lies in [0, 100) |
| Indicators.RsiOfLead | TheSSS/R1_V/rl_trader.py:363-371 | the RSI of any 14-delta window lies in [0, 100) |
| Indicators.Rsi | TheSSS/R1_V/rl_trader.py:355-375 | with 14 or fewer closes the RSI is the neutral 50; always in [0, 100) |
| Indicators.RsiDependsOnLeadingCloses | TheSSS/R1_V/rl_trader.py:363 | two histories agreeing on their first 15 closes have the same RSI |
| Indicators.RsiOfFlatSeries | TheSSS/R1_V/rl_trader.py:355-372 | a constant close column (more than 14 closes) has RSI exactly 0 |
| Indicators.RsiOfZeroLead | TheSSS/R1_V/rl_trader.py:363-371 | a window of zero deltas has RSI 0 |
| Indicators.UpAverageOfZeros | TheSSS/R1_V/rl_trader.py:364-367 | a window of zero deltas has mean gain 0 |
| Indicators.RsiOfRisingSeries | TheSSS/R1_V/rl_trader.py:355-372 | if each of the first 14 steps rises by at least 0.000001, the RSI is above 70 |
| Indicators.AveragesOfGains | TheSSS/R1_V/rl_trader.py:364-368 | with no losses and every gain at least m, the up-average is at least m and the down value is the epsilon |
| Indicators.NoLosses | TheSSS/R1_V/rl_trader.py:365 | a window of non-negative deltas selects no losses |
| Indicators.StrengthAboveThreshold | TheSSS/R1_V/rl_trader.py:370-371 | a strength of at least 0.000001 over the epsilon gives an RSI above 70 |
| Indicators.Alpha | TheSSS/R1_V/rl_trader.py:383-384 | the smoothing factor of a positive span lies in (0, 1] |
| Indicators.EmaLast | TheSSS/R1_V/rl_trader.py:383-384 | the last exponential average lies between the minimum and the maximum of the series |
| Indicators.Macd | TheSSS/R1_V/rl_trader.py:377-389 | fewer than 26 closes give 0; otherwise the MACD's magnitude is at most the series' range |
| Indicators.MacdOfFlatSeries | TheSSS/R1_V/rl_trader.py:377-386 | a constant close column has MACD 0 |
| Indicators.EmaOrderOnRisingSeries | TheSSS/R1_V/rl_trader.py:383-384 | on a non-decreasing series the faster average is never below the slower one |
| Indicators.MacdOfRisingSeries | TheSSS/R1_V/rl_trader.py:377-386 | a non-decreasing close column has a non-negative MACD |
| Indicators.MacdOfStrictlyRisingSeries | TheSSS/R1_V/rl_trader.py:377-389 | 26 or more closes that never fall and end above the first close have a strictly positive MACD: the 12-span average leads the 26-span one |
| MarketStates.GetMarketState | TheSSS/R1_V/rl_trader.py:340-347 | price and volume come from the row, spread is 0.0002, a row's own rsi/macd column overrides the computed one, otherwise rsi and macd are Indicators.Rsi and Indicators.Macd of the whole history's close column: computed RSI in [0, 100), 50 on a short history, MACD 0 on fewer than 26 bars |
| MarketStates.StateIgnoresRowBeyondCloseAndVolume | TheSSS/R1_V/rl_trader.py:340-347 | two rows without indicator columns that share close and volume give the same state |
| MarketStates.CleanField | TheSSS/R1_V/rl_trader.py:349-353 | a field becomes null iff it is NaN; finite values are kept |
| MarketStates.CleanState | TheSSS/R1_V/rl_trader.py:349-353 | each of the five fields is null iff it was NaN, and a finite field keeps its value |
| MarketStates.CleanKeepsFiniteState | TheSSS/R1_V/rl_trader.py:349-353 | cleaning a state built from finite values changes nothing |
| Policy.TrimStart | TheSSS/R1_V/rl_trader.py:327 | the result is a suffix of the input that starts with a non-space, and everything removed is whitespace |
| Policy.TrimEnd | TheSSS/R1_V/rl_trader.py:327 | the result is a prefix of the input that ends with a non-space, and everything removed is whitespace |
| Policy.Upper | TheSSS/R1_V/rl_trader.py:327 | same length, each character replaced by its upper case for ASCII letters and the long s, unchanged otherwise |
| Policy.ParseAction | TheSSS/R1_V/rl_trader.py:327-329 | the reply yields an action iff its stripped, upper-cased text is BUY, SELL or HOLD, and then that text names the action |
| Policy.TrimStartPastSpaces | TheSSS/R1_V/rl_trader.py:327 | leading whitespace before a non-space is removed entirely and nothing more |
| Policy.TrimEndPastSpaces | TheSSS/R1_V/rl_trader.py:327 | trailing whitespace after a non-space is removed entirely and nothing more |
| Policy.ActionWordEnds | TheSSS/R1_V/rl_trader.py:327 | a word that upper-cases to an action name neither starts nor ends with whitespace |
| Policy.StripPadded | TheSSS/R1_V/rl_trader.py:327 | stripping whitespace padding around such a word returns exactly the word |
| Policy.ParseActionText | TheSSS/R1_V/rl_trader.py:327-329 | an action name in any letter case, padded with whitespace, is read back as that action |
| Policy.ParseLowerCaseReply | TheSSS/R1_V/rl_trader.py:327-329 | the reply "sell" with a newline is accepted as SELL |
| Policy.Fallback | TheSSS/R1_V/rl_trader.py:334-338 | BUY iff RSI < 30, SELL iff RSI > 70, HOLD iff 30 <= RSI <= 70 |
| Policy.ActionIndex | TheSSS/R1_V/rl_trader.py:315 | the queried row is in range, and is the episode count itself while that is below the history length |
| Policy.ActionIndexPeriodic | TheSSS/R1_V/rl_trader.py:314-316 | one more full cycle of episodes queries the same row |
| Policy.GetAction | TheSSS/R1_V/rl_trader.py:313-338 | empty history iff ZeroDivision; an oracle crash iff OracleCrashed; every other call succeeds with BUY, SELL or HOLD; a valid reply is used as given; otherwise the fallback on the RSI of the queried row's state |
| Policy.RisingHistorySellsOnFallback | TheSSS/R1_V/rl_trader.py:313-338 | with the oracle timing out and the first 14 closes rising, the action is SELL |
| Stats.Clip | TheSSS/R1_V/rl_trader.py:413-417 | `np.clip`: for lo <= hi the result lies in [lo, hi], equals x inside the range, lo below it and hi above it; for hi < lo it is hi |
| Rewards.PositionSize | TheSSS/R1_V/rl_trader.py:413-417 | the size is risk over the volatility floored at 0.00001 whenever that lies in [min, max], min below that range, max above it, and max when max < min; it always lies in [min, max] when min <= max, and is non-negative for non-negative risk and cap |
| Rewards.Reward | TheSSS/R1_V/rl_trader.py:391-444 | HOLD earns the default reward; BUY/SELL earn the risk-adjusted value when it is within +-1000, exactly 1000 above that and exactly -1000 below |
| Rewards.SameStateReward | TheSSS/R1_V/rl_trader.py:402-429 | on an unchanged price BUY and SELL earn the same, never positive for a non-negative cost and a risk factor in [0, 1] |
| Rewards.MissingNextPriceMeansNoMove | TheSSS/R1_V/rl_trader.py:402-406 | a next state without a price scores as an unchanged price |
| Rewards.SellMirrorsBuy | TheSSS/R1_V/rl_trader.py:420-423 | selling into a move of +d earns what buying into a move of -d earns |
| Rewards.BuyRewardMonotone | TheSSS/R1_V/rl_trader.py:402-436 | a higher next price never lowers a buy's reward |
| Rewards.BuyRewardPositiveIff | TheSSS/R1_V/rl_trader.py:413-436 | with a positive minimum size and risk factor below 1, a buy earns a positive reward iff the move exceeds spread plus cost |
| Training.NewTrainer | TheSSS/R1_V/rl_trader.py:119-123 | a new trader starts with zero episodes, zero total and zero high-water mark |
| Training.EpisodeReward | TheSSS/R1_V/rl_trader.py:224-229 | a hold scores the default reward; a buy or sell scores within +-1000 |
| Training.DefaultEpisodeRewardNotPositive | TheSSS/R1_V/rl_trader.py:224-229 | with the default configuration no episode reward is positive |
| Training.TrainOnRow | TheSSS/R1_V/rl_trader.py:224-248 | succeeds iff the history is non-empty, the oracle did not crash and a volatility is available; names the error otherwise; the reward is `EpisodeReward` of the action `get_action` chose for this episode count, on this row, with the tick's volatility; it is added to the total and nothing else changes |
| Training.ImprovementPercent | TheSSS/R1_V/rl_trader.py:191-192 | a total above the previous mark gives a positive percentage |
| Training.Episode | TheSSS/R1_V/rl_trader.py:180-201 | counts the episode before training; a completed episode's reward is the one `train` returns for the counted trainer, and the total grows by exactly it; a raise leaves the totals alone; an event is recorded iff the total beats the mark, carrying the episode and total, and the mark becomes their maximum; a refresh fires iff the count is a multiple of five |
| Training.Advance | TheSSS/R1_V/rl_trader.py:180-201 | folding an episode in: a raise fails the session and changes no log; a completed episode appends its total, appends its event iff there is one, and appends its count iff it refreshed |
| Training.Step | TheSSS/R1_V/rl_trader.py:174-181 | halts iff the elapsed time reached 1800 s, changing nothing else; with an empty history does nothing; otherwise runs one episode on row (completed episodes mod history length), still running iff it completed, failed with its fault otherwise |
| Training.BeginInv | TheSSS/R1_V/rl_trader.py:171-172 | a fresh session satisfies the session invariant |
| Training.NextMultiple | TheSSS/R1_V/rl_trader.py:251 | one more episode adds a multiple of five exactly when the new count is one |
| Training.AdvanceCounts | TheSSS/R1_V/rl_trader.py:180-181 | after an episode the count is the start plus the completed episodes (plus one that raised), and the total is the last logged total |
| Training.AdvanceHighWater | TheSSS/R1_V/rl_trader.py:190-201 | the mark stays the maximum of the starting mark and all totals, moved only by improvement events |
| Training.AdvanceImprovements | TheSSS/R1_V/rl_trader.py:190-200 | improvement events keep strictly increasing totals above the starting mark with positive percentages |
| Training.AdvanceRetrains | TheSSS/R1_V/rl_trader.py:250-252 | refreshes stay exactly the multiples of five among completed episodes, in increasing order |
| Training.StepInv | TheSSS/R1_V/rl_trader.py:174-206 | one clock check plus episode preserves the session invariant |
| Training.StepExtends | TheSSS/R1_V/rl_trader.py:174-206 | a step only appends to the logged totals and to the improvement events |
| Training.Loop | TheSSS/R1_V/rl_trader.py:174-212 | the loop preserves the session invariant, only extends the totals and events, and a stopped session stays as it is |
| Training.RunTrading | TheSSS/R1_V/rl_trader.py:166-212 | a run satisfies the session invariant, remembers the starting total, and never lowers the high-water mark |
| Training.HaltsBeforeFirstBar | TheSSS/R1_V/rl_trader.py:174-178 | a clock already at the limit halts before any episode, leaving the counters untouched |
| Training.TailOfClock | TheSSS/R1_V/rl_trader.py:174-178 | once a clock reading reaches the limit, no later reading of an ordered clock is below it |
| Training.LoopCount | TheSSS/R1_V/rl_trader.py:174-212 | with a healthy oracle and an ordered clock, one episode completes per reading below the limit, and the session still runs iff every reading was below it |
| Training.HealthyStep | TheSSS/R1_V/rl_trader.py:175-181 | before the limit, a healthy tick completes exactly one episode |
| Training.RunCompletesEpisodesUntilLimit | TheSSS/R1_V/rl_trader.py:174-212 | with a volatility estimate, a run completes one episode per reading below the limit and halts iff some reading reaches it |
| Training.RunAsWrittenStopsAfterFirstEpisode | TheSSS/R1_V/rl_trader.py:405-407 | without a volatility estimate the run fails on its first episode, counting it but changing no total, event or refresh |
| Training.StepWithoutVolatility | TheSSS/R1_V/rl_trader.py:405-407 | an episode without a volatility estimate counts itself and then fails |
| Training.DefaultEpisodeNeverImproves | TheSSS/R1_V/rl_trader.py:190-201 | with the default configuration, an episode from a total at or below the mark records no event and keeps it there |
| Training.DefaultStepNeverImproves | TheSSS/R1_V/rl_trader.py:190-201 | the same for one step of the loop |
| Training.DefaultLoopNeverImproves | TheSSS/R1_V/rl_trader.py:174-201 | the same for any number of steps |
| Training.DefaultRunNeverImproves | TheSSS/R1_V/rl_trader.py:166-201 | from a total at or below the mark, a run with the default configuration records no improvement |
| Orders.NewManager | TheSSS/strategies/trading_strategy.py:8-11 | a new book is empty with a cap of ten |
| Orders.CanEnterTrade | TheSSS/strategies/trading_strategy.py:13-22 | refused for the cap iff the book is full; refused for the price iff below the cap, non-empty and the price differs from the first trade's; admitted otherwise |
| Orders.EnterTrade | TheSSS/strategies/trading_strategy.py:24-31 | returns true iff admitted, then appends the trade; a refusal changes nothing; the cap and one-price invariant is preserved |
| Orders.ReverseTrade | TheSSS/strategies/trading_strategy.py:33-35 | the book is emptied, its cap kept, the invariant re-established |
| Orders.ReverseIdempotent | TheSSS/strategies/trading_strategy.py:33-35 | reversing twice is the same as reversing once |
| Orders.RepeatedEntriesFill | TheSSS/strategies/trading_strategy.py:13-31 | below the cap, k entries at the book's price append k copies of the trade |
| Orders.CapReachedAfterTenEntries | TheSSS/strategies/trading_strategy.py:11-22 | ten entries fill a new book; the eleventh is refused for the cap at any price and changes nothing |
| Candles.Sma | TheSSS/strategies/trading_strategy.py:37-43 | the mean of the last `period` closes, or of all closes when fewer; StatisticsError on no candles, division by zero for period 0; a positive-period result lies within the window's close range |
| Candles.Resistance | TheSSS/strategies/trading_strategy.py:45-50 | fails iff there are no candles; otherwise the highest high of the last 36 candles, attained by one of them |
| Candles.Support | TheSSS/strategies/trading_strategy.py:52-57 | fails iff there are no candles; otherwise the lowest low of the last 78 candles, attained by one of them |
| Candles.EvaluateTradeSignal | TheSSS/strategies/trading_strategy.py:59-80 | HOLD on fewer than three candles; BUY iff all last three closes clear the SMA and support, or the SMA and resistance; SELL iff not BUY and all sit under the SMA and one level |
| Candles.SignalDependsOnLastThreeCloses | TheSSS/strategies/trading_strategy.py:65-73 | only the last three closes affect the signal |
| Candles.SignalByExtremes | TheSSS/strategies/trading_strategy.py:69-80 | the rule restated on the lowest and highest of the last three closes, as three iffs |
| Paper.NewAccount | main.py:79-81 | a new account has the given balance (10000 by default) and no positions |
| Paper.KindOf | main.py:85 | the position is labelled BUY iff the order type is the buy constant, SELL otherwise |
| Paper.ExecuteTrade | main.py:83-100 | the position list grows by exactly the new position; a buy pays volume times price, anything else receives it |
| Paper.BuyThenSellRestoresBalance | main.py:83-100 | a buy followed by a sell of the same volume and price leaves the balance unchanged |
| Paper.BalanceMatchesLedger | main.py:83-100 | after any sequence of trades the balance equals the opening balance plus the cash flow of every recorded position |

Helpers without a row of their own are stated through the rows of the members that use them:
- `Bars.ValidBar`, the mask of lines 141-149, through `Bars.FilterValid` and `Bars.LoadFilterKeepsFirstValid`;
- `Training.RetrainDue`, the gate of line 251, through `Training.Episode` and `Training.AdvanceRetrains`;
- `Policy.Strip`, `str.strip()` at line 327, through `Policy.TrimStart`, `Policy.TrimEnd`, `Policy.StripPadded` and `Policy.ParseAction`;
- `Rewards.Pips` and `Rewards.Scaled`, lines 420-429, through `Rewards.Reward`, `Rewards.SellMirrorsBuy` and `Rewards.BuyRewardPositiveIff`.

## Left out

- The first class in `TheSSS/R1_V/rl_trader.py` (lines 1–85) is a broken duplicate: its body is cut off before the file restarts with imports. Its `try:` at line 82 is never closed, so the file as a whole does not parse. The model, and the `calculate_volatility` finding, take the complete class from line 96 on its own.
- The oracle work of `get_action` and `retrain_model` is not modelled: subprocesses, prompts, JSON rendering of the state and log files (lines 254–311 and 319–326). The reply is an input. The refresh is modelled only as the multiple-of-five gate, recorded per episode. Its own failures are caught inside it and do not affect the loop.
- Logging, `time.sleep`, `print`, the improvements log file and the session report are left out. They do not change the counters.
- `calculate_volatility` is not defined in the source, so no volatility formula is modelled. The estimate is an input per episode (see Findings).
- The `KeyError` handler in `calculate_reward` (lines 446–448) is not modelled. The model's states always carry the keys the handler guards, and a missing `price` or `spread` falls back through `.get` defaults (`Rewards.PriceView`).
- Floats are reals. The following are left out:
  - NaN and infinity outside `clean_state`;
  - the `nan_to_num` calls on the reward, the total and the indicators, which cannot fire on real values;
  - the loader's `dropna` and CSV parsing;
  - rounding, including an RSI that float division could round to exactly 100.
- Policy.Upper: maps ASCII letters and the long s (to 'S') one character to one. Python's `str.upper()` covers all of Unicode and can lengthen a string (ß becomes "SS", ﬂ becomes "FL", ẖ becomes H with a combining mark). None of those expansions can produce exactly BUY, SELL or HOLD, so `Policy.ParseAction` accepts the same replies as the source.
- The session's wall-clock timestamps, the improvement timestamps and the session duration are left out. The clock is modelled only as the sequence of elapsed readings.
- The clock is read once per bar by the check inside the `for` (line 176). The `while` condition (line 174) adds a second reading only before the first bar of each pass. The model merges that extra reading into the first bar's, so every bar gets exactly one reading. An empty history is modelled as a pass that runs no episode.
- `load_historical_data`'s missing-column `ValueError` and the CSV reading are left out. The loader is modelled from the parsed rows on.
- `Paper.GetBalance` and `Paper.GetPositions` are plain accessors and have no contract of their own.
- `Orders.CanEnterTrade`: `can_enter_trade` returns a flag and a message string, such as "Maximum order count reached.". The model returns a `Refusal` tag instead, keeping the two prices of a price refusal. `enter_trade` only logs the message.
- MetaTrader5 and network code are left out: `send_to_mac`, `get_account_info`, `place_market_order`, `run_diagnostics` and `main` in `main.py`.
- The strategy's `main()` demo, which runs on fixed dummy candles, is left out.
- The backtrader strategies and the upload, test and server scripts are not part of this model.

## Findings

| source | as written | input that shows it | evidently intended | confidence | as-written member | corrected member |
|---|---|---|---|---|---|---|
| TheSSS/R1_V/rl_trader.py:407 | `calculate_reward` calls `self.calculate_volatility(vol_window)`, which the class does not define. Every `train` call raises AttributeError after the episode was counted. `run_trading` catches it, so every session ends after its first episode without changing the total. | any non-empty history, with the clock below 1800 s and the oracle not crashing | a volatility estimate over the configured window feeds the position size, and the session keeps training until the time limit | not executed | Training.RunAsWrittenStopsAfterFirstEpisode | Training.RunCompletesEpisodesUntilLimit |

=== FILE: bars.dfy ===
/** Price bars and the load-time filter of the RL trader: rows that fail the
    OHLC/volume predicate are dropped first, and only then are repeated
    timestamps removed, keeping the first surviving row of each. */
module Bars {
  import opened Common

  /** One row of the historical data. `rsi` and `macd` are optional extra
      columns; when present they override the computed indicators. */
  datatype Bar = Bar(timestamp: int, open: real, high: real, low: real,
                     close: real, volume: real, rsi: Option<real>, macd: Option<real>)

  /** The row predicate applied before de-duplication. */
  predicate ValidBar(b: Bar)
  {
    && b.close > 0.0
    && b.volume >= 0.0
    && b.high >= b.low
    && b.high >= b.open
    && b.high >= b.close
    && b.low <= b.open
    && b.low <= b.close
  }

  function Closes(bars: seq<Bar>): (cs: seq<real>)
    ensures |cs| == |bars|
    ensures forall i :: 0 <= i < |bars| ==> cs[i] == bars[i].close
  {
    seq(|bars|, i requires 0 <= i < |bars| => bars[i].close)
  }

  function Stamps(bars: seq<Bar>): set<int>
  {
    set b | b in bars :: b.timestamp
  }

  ghost predicate UniqueStamps(bars: seq<Bar>)
  {
    forall i, j :: 0 <= i < j < |bars| ==> bars[i].timestamp != bars[j].timestamp
  }

  lemma StampsSnoc(bars: seq<Bar>, b: Bar)
    ensures Stamps(bars + [b]) == Stamps(bars) + {b.timestamp}
  {
    var s := bars + [b];
    forall t | t in Stamps(s) ensures t in Stamps(bars) + {b.timestamp} {
      var c :| c in s && c.timestamp == t;
      if c != b { assert c in bars; }
    }
    forall t | t in Stamps(bars) ensures t in Stamps(s) {
      var c :| c in bars && c.timestamp == t;
      assert c in s;
    }
  }

  /** Row filter (the boolean mask): keeps valid rows in their order. */
  function FilterValid(bars: seq<Bar>): (r: seq<Bar>)
    ensures |r| <= |bars|
    ensures forall i :: 0 <= i < |r| ==> ValidBar(r[i])
    ensures forall b :: b in r <==> b in bars && ValidBar(b)
  {
    if |bars| == 0 then []
    else
      var last := bars[|bars| - 1];
      assert bars == bars[..|bars| - 1] + [last];
      FilterValid(bars[..|bars| - 1]) + (if ValidBar(last) then [last] else [])
  }

  /** De-duplication by timestamp, keeping the first occurrence. */
  function Dedupe(bars: seq<Bar>): (r: seq<Bar>)
    ensures |r| <= |bars|
    ensures forall b :: b in r ==> b in bars
    ensures UniqueStamps(r)
    ensures Stamps(r) == Stamps(bars)
  {
    if |bars| == 0 then []
    else
      var prefix := bars[..|bars| - 1];
      var last := bars[|bars| - 1];
      var kept := Dedupe(prefix);
      assert bars == prefix + [last];
      StampsSnoc(prefix, last);
      if last.timestamp in Stamps(prefix) then kept
      else
        StampsSnoc(kept, last);
        assert forall i :: 0 <= i < |kept| ==> kept[i].timestamp in Stamps(kept);
        kept + [last]
  }

  /** Index `i` holds the first valid row carrying its timestamp. */
  ghost predicate FirstValid(bars: seq<Bar>, i: int)
    requires 0 <= i < |bars|
  {
    && ValidBar(bars[i])
    && forall j :: 0 <= j < i && ValidBar(bars[j]) ==> bars[j].timestamp != bars[i].timestamp
  }

  /** Reference definition: select, in input order, exactly the rows that are
      the first valid row of their timestamp. */
  ghost function KeepFirstValid(bars: seq<Bar>): seq<Bar>
  {
    if |bars| == 0 then []
    else
      KeepFirstValid(bars[..|bars| - 1])
        + (if FirstValid(bars, |bars| - 1) then [bars[|bars| - 1]] else [])
  }

  /** The loader's filter: validity mask, then keep-first de-duplication. */
  function LoadFilter(bars: seq<Bar>): (r: seq<Bar>)
    ensures forall i :: 0 <= i < |r| ==> ValidBar(r[i])
    ensures UniqueStamps(r)
    ensures forall b :: b in r ==> b in bars
    ensures forall b :: b in bars && ValidBar(b) ==> b.timestamp in Stamps(r)
  {
    var valid := FilterValid(bars);
    var r := Dedupe(valid);
    assert forall b :: b in bars && ValidBar(b) ==> b.timestamp in Stamps(valid);
    r
  }

  /** Filtering before de-duplicating equals selecting the first valid row of
      each timestamp, in the original order: a valid row survives even when
      an earlier, invalid row shares its timestamp. */
  lemma {:induction false} LoadFilterKeepsFirstValid(bars: seq<Bar>)
    ensures LoadFilter(bars) == KeepFirstValid(bars)
  {
    if |bars| > 0 {
      var prefix := bars[..|bars| - 1];
      var last := bars[|bars| - 1];
      LoadFilterKeepsFirstValid(prefix);
      assert bars == prefix + [last];
      var fv := FilterValid(prefix);
      if ValidBar(last) {
        assert FilterValid(bars) == fv + [last];
        assert (fv + [last])[..|fv + [last]| - 1] == fv;
        FirstValidLast(bars);
      } else {
        assert FilterValid(bars) == fv;
      }
    }
  }

  /** A valid last row is the first valid row of its timestamp exactly when
      no earlier valid row carries that timestamp. */
  lemma FirstValidLast(bars: seq<Bar>)
    requires |bars| > 0 && ValidBar(bars[|bars| - 1])
    ensures FirstValid(bars, |bars| - 1)
        <==> bars[|bars| - 1].timestamp !in Stamps(FilterValid(bars[..|bars| - 1]))
  {
    var prefix := bars[..|bars| - 1];
    var last := bars[|bars| - 1];
    var fv := FilterValid(prefix);
    if last.timestamp in Stamps(fv) {
      var c :| c in fv && c.timestamp == last.timestamp;
      var j :| 0 <= j < |prefix| && prefix[j] == c;
      assert bars[j] == c && ValidBar(c);
    } else {
      forall j | 0 <= j < |bars| - 1 && ValidBar(bars[j])
        ensures bars[j].timestamp != last.timestamp
      {
        assert bars[j] == prefix[j];
        assert bars[j] in fv;
      }
    }
  }

  /** Every retained row is the first valid row of its timestamp, and every
      such row is retained. */
  lemma {:induction false} KeepFirstValidMembers(bars: seq<Bar>)
    ensures forall i :: 0 <= i < |bars| && FirstValid(bars, i) ==> bars[i] in KeepFirstValid(bars)
    ensures forall b :: b in KeepFirstValid(bars) ==>
              exists i :: 0 <= i < |bars| && FirstValid(bars, i) && bars[i] == b
  {
    if |bars| > 0 {
      var prefix := bars[..|bars| - 1];
      KeepFirstValidMembers(prefix);
      forall i | 0 <= i < |prefix|
        ensures FirstValid(prefix, i) == FirstValid(bars, i)
      {
        assert forall j :: 0 <= j <= i ==> prefix[j] == bars[j];
      }
    }
  }

  /** Example: an invalid row at time 1 does not shadow a later valid row at
      the same time. */
  lemma EarlierInvalidDuplicateDoesNotShadow()
    ensures
      var bad := Bar(1, 1.0, 2.0, 1.0, 0.0, 5.0, None, None);
      var good := Bar(1, 1.0, 2.0, 1.0, 1.5, 5.0, None, None);
      LoadFilter([bad, good]) == [good]
  {
    var bad := Bar(1, 1.0, 2.0, 1.0, 0.0, 5.0, None, None);
    var good := Bar(1, 1.0, 2.0, 1.0, 1.5, 5.0, None, None);
    assert [bad, good][..1] == [bad];
    assert FilterValid([bad]) == [];
    assert FilterValid([bad, good]) == [good];
    assert [good][..0] == [];
    assert Dedupe([good]) == [good];
  }
}

=== FILE: candles.dfy ===
/** Candle indicators and the three-candle signal rule of the strategy. */
module Candles {
  import opened Common
  import opened Stats

  datatype Candle = Candle(open: real, high: real, low: real, close: real)

  const ResistanceWindow: nat := 36
  const SupportWindow: nat := 78

  function CloseOf(candles: seq<Candle>): (cs: seq<real>)
    ensures |cs| == |candles| && forall i :: 0 <= i < |candles| ==> cs[i] == candles[i].close
  {
    seq(|candles|, i requires 0 <= i < |candles| => candles[i].close)
  }

  function HighOf(candles: seq<Candle>): (hs: seq<real>)
    ensures |hs| == |candles| && forall i :: 0 <= i < |candles| ==> hs[i] == candles[i].high
  {
    seq(|candles|, i requires 0 <= i < |candles| => candles[i].high)
  }

  function LowOf(candles: seq<Candle>): (ls: seq<real>)
    ensures |ls| == |candles| && forall i :: 0 <= i < |candles| ==> ls[i] == candles[i].low
  {
    seq(|candles|, i requires 0 <= i < |candles| => candles[i].low)
  }

  /** The last min(k, n) candles, as `candles[-k:] if len >= k else candles`. */
  function Trailing(candles: seq<Candle>, k: nat): (w: seq<Candle>)
    ensures |w| == if |candles| >= k then k else |candles|
    ensures w == candles[|candles| - |w|..]
  {
    if |candles| >= k then candles[|candles| - k..] else candles
  }

  /** Python's `candles[-period:]` for a period that is not positive:
      period 0 slices from the start, a negative period from index -period. */
  function SliceFromNegated(candles: seq<Candle>, period: int): seq<Candle>
    requires period <= 0
  {
    if -period >= |candles| then [] else candles[-period..]
  }

  /** calculate_sma (default period 40). With fewer candles than the period the mean of all
      closes is used (StatisticsError when there are none). The source never
      guards the period: 0 divides by zero, and a negative period divides the
      sum of the closes after index -period by that period. */
  function Sma(candles: seq<Candle>, period: int := 40): (r: Result<real, Fault>)
    ensures period > 0 && |candles| >= period ==>
              r == Ok(Mean(CloseOf(candles[|candles| - period..])))
    ensures 0 < |candles| < period ==> r == Ok(Mean(CloseOf(candles)))
    ensures |candles| == 0 && period > 0 ==> r == Err(EmptyMean)
    ensures period == 0 ==> r == Err(ZeroDivision)
    ensures r.Ok? && period > 0 ==>
              var w := CloseOf(Trailing(candles, period as nat));
              |w| > 0 && Min(w) <= r.value <= Max(w)
  {
    if |candles| < period then
      if |candles| == 0 then Err(EmptyMean)
      else
        var w := CloseOf(candles);
        MeanBounds(w, Min(w), Max(w));
        Ok(Mean(w))
    else if period > 0 then
      var w := CloseOf(candles[|candles| - period..]);
      MeanBounds(w, Min(w), Max(w));
      Ok(Sum(w) / (period as real))
    else if period == 0 then Err(ZeroDivision)
    else Ok(Sum(CloseOf(SliceFromNegated(candles, period))) / (period as real))
  }

  /** calculate_dynamic_resistance: highest high of the last 36 candles
      (ValueError on no candles). */
  function Resistance(candles: seq<Candle>): (r: Result<real, Fault>)
    ensures r.Err? <==> |candles| == 0
    ensures r.Err? ==> r.error == EmptyExtremum
    ensures r.Ok? ==>
              var w := Trailing(candles, ResistanceWindow);
              && (forall i :: 0 <= i < |w| ==> w[i].high <= r.value)
              && (exists i :: 0 <= i < |w| && w[i].high == r.value)
  {
    if |candles| == 0 then Err(EmptyExtremum)
    else
      var hs := HighOf(Trailing(candles, ResistanceWindow));
      Ok(Max(hs))
  }

  /** calculate_dynamic_support: lowest low of the last 78 candles. */
  function Support(candles: seq<Candle>): (r: Result<real, Fault>)
    ensures r.Err? <==> |candles| == 0
    ensures r.Err? ==> r.error == EmptyExtremum
    ensures r.Ok? ==>
              var w := Trailing(candles, SupportWindow);
              && (forall i :: 0 <= i < |w| ==> r.value <= w[i].low)
              && (exists i :: 0 <= i < |w| && w[i].low == r.value)
  {
    if |candles| == 0 then Err(EmptyExtremum)
    else
      var ls := LowOf(Trailing(candles, SupportWindow));
      Ok(Min(ls))
  }

  /** Every close is at or above the level and the SMA. */
  ghost predicate AllAtOrAbove(closes: seq<real>, level: real, sma: real)
  {
    forall i :: 0 <= i < |closes| ==> closes[i] >= level && closes[i] >= sma
  }

  ghost predicate AllAtOrBelow(closes: seq<real>, level: real, sma: real)
  {
    forall i :: 0 <= i < |closes| ==> closes[i] <= level && closes[i] <= sma
  }

  /** The `all(...)` test of the source, written out for the three closes. */
  function HoldAbove(cs: seq<real>, level: real, sma: real): (b: bool)
    requires |cs| == 3
    ensures b <==> AllAtOrAbove(cs, level, sma)
  {
    cs[0] >= level && cs[0] >= sma && cs[1] >= level && cs[1] >= sma && cs[2] >= level && cs[2] >= sma
  }

  function HoldBelow(cs: seq<real>, level: real, sma: real): (b: bool)
    requires |cs| == 3
    ensures b <==> AllAtOrBelow(cs, level, sma)
  {
    cs[0] <= level && cs[0] <= sma && cs[1] <= level && cs[1] <= sma && cs[2] <= level && cs[2] <= sma
  }

  function LastThreeCloses(candles: seq<Candle>): (cs: seq<real>)
    requires |candles| >= 3
    ensures |cs| == 3
  {
    CloseOf(candles[|candles| - 3..])
  }

  /** evaluate_trade_signal: BUY when the last three closes all hold at or
      above the SMA and at or above support (or all at or above resistance);
      SELL for the mirrored condition; BUY wins when both hold. */
  function EvaluateTradeSignal(candles: seq<Candle>, support: real, resistance: real, sma: real)
    : (a: Action)
    ensures |candles| < 3 ==> a == Hold
    ensures |candles| >= 3 ==>
              var cs := LastThreeCloses(candles);
              && (a == Buy <==> AllAtOrAbove(cs, support, sma) || AllAtOrAbove(cs, resistance, sma))
              && (a == Sell <==>
                    !(AllAtOrAbove(cs, support, sma) || AllAtOrAbove(cs, resistance, sma))
                    && (AllAtOrBelow(cs, support, sma) || AllAtOrBelow(cs, resistance, sma)))
  {
    if |candles| < 3 then Hold
    else
      var cs := LastThreeCloses(candles);
      var buySupport := HoldAbove(cs, support, sma);
      var buyResistance := HoldAbove(cs, resistance, sma);
      var sellSupport := HoldBelow(cs, support, sma);
      var sellResistance := HoldBelow(cs, resistance, sma);
      if buySupport || buyResistance then Buy
      else if sellSupport || sellResistance then Sell
      else Hold
  }

  /** Only the last three closes matter. */
  lemma SignalDependsOnLastThreeCloses(a: seq<Candle>, b: seq<Candle>, support: real,
                                       resistance: real, sma: real)
    requires |a| >= 3 && |b| >= 3
    requires LastThreeCloses(a) == LastThreeCloses(b)
    ensures EvaluateTradeSignal(a, support, resistance, sma) == EvaluateTradeSignal(b, support, resistance, sma)
  {
  }

  /** The rule restated through the extremes of the last three closes: buy
      when the lowest clears the SMA and one of the levels, sell (unless
      buying) when the highest stays under the SMA and one of the levels. */
  lemma SignalByExtremes(candles: seq<Candle>, support: real, resistance: real, sma: real)
    requires |candles| >= 3
    ensures var cs := LastThreeCloses(candles);
      var lo := Min(cs);
      var hi := Max(cs);
      var buy := lo >= sma && (lo >= support || lo >= resistance);
      var sell := hi <= sma && (hi <= support || hi <= resistance);
      var a := EvaluateTradeSignal(candles, support, resistance, sma);
      && (a == Buy <==> buy)
      && (a == Sell <==> !buy && sell)
      && (a == Hold <==> !buy && !sell)
  {
    var cs := LastThreeCloses(candles);
    var lo := Min(cs);
    var hi := Max(cs);
    assert lo in cs && hi in cs;
    assert AllAtOrAbove(cs, support, sma) <==> lo >= sma && lo >= support;
    assert AllAtOrAbove(cs, resistance, sma) <==> lo >= sma && lo >= resistance;
    assert AllAtOrBelow(cs, support, sma) <==> hi <= sma && hi <= support;
    assert AllAtOrBelow(cs, resistance, sma) <==> hi <= sma && hi <= resistance;
  }
}

=== FILE: common.dfy ===
/** Shared vocabulary of the trading engine: optional values, results that
    carry the exception a Python call would raise, and the three-way trade
    action used both by the RL trader and by the candle strategy. */
module Common {

  datatype Option<+T> = None | Some(value: T) {
    function GetOr(default: T): T {
      match this
      case Some(v) => v
      case None => default
    }
  }

  datatype Result<+T, +E> = Ok(value: T) | Err(error: E)

  /** The exceptions that escape the modelled code. */
  datatype Fault =
    | ZeroDivision        // ZeroDivisionError
    | EmptyMean           // statistics.StatisticsError on an empty list
    | EmptyExtremum       // ValueError from max()/min() of an empty sequence
    | OracleCrashed       // any subprocess failure other than a non-zero exit or a timeout
    | MissingVolatility   // AttributeError: the trader has no calculate_volatility

  /** The trade actions, rendered as the strings "BUY", "SELL", "HOLD". */
  datatype Action = Buy | Sell | Hold

  function ActionText(a: Action): string {
    match a
    case Buy => "BUY"
    case Sell => "SELL"
    case Hold => "HOLD"
  }
}

=== FILE: indicators.dfy ===
/** RSI and MACD of the RL trader. Both are functions of the whole close
    column of the loaded history: the row being evaluated is never read. */
module Indicators {
  import opened Stats

  const RsiPeriod: nat := 14
  const RsiNeutral: real := 50.0
  /** Stand-in for the down-average when no delta is negative. */
  const RsiEpsilon: real := 0.000000001

  /** numpy.diff: consecutive differences (empty for fewer than two values). */
  function Deltas(xs: seq<real>): (d: seq<real>)
    ensures |d| == if |xs| == 0 then 0 else |xs| - 1
    ensures forall i :: 0 <= i < |d| ==> d[i] == xs[i + 1] - xs[i]
  {
    if |xs| <= 1 then [] else seq(|xs| - 1, i requires 0 <= i < |xs| - 1 => xs[i + 1] - xs[i])
  }

  /** The deltas selected by the mask `deltas >= 0`, in order. */
  function NonNegatives(d: seq<real>): (r: seq<real>)
    ensures |r| <= |d|
    ensures forall i :: 0 <= i < |r| ==> r[i] >= 0.0
    ensures forall x :: x in r <==> x in d && x >= 0.0
    ensures forall x :: multiset(r)[x] == if x >= 0.0 then multiset(d)[x] else 0
  {
    if |d| == 0 then []
    else
      assert d == d[..|d| - 1] + [d[|d| - 1]];
      NonNegatives(d[..|d| - 1]) + (if d[|d| - 1] >= 0.0 then [d[|d| - 1]] else [])
  }

  /** The deltas selected by the mask `deltas < 0`, in order. */
  function Negatives(d: seq<real>): (r: seq<real>)
    ensures |r| <= |d|
    ensures forall i :: 0 <= i < |r| ==> r[i] < 0.0
    ensures forall x :: x in r <==> x in d && x < 0.0
    ensures forall x :: multiset(r)[x] == if x < 0.0 then multiset(d)[x] else 0
  {
    if |d| == 0 then []
    else
      assert d == d[..|d| - 1] + [d[|d| - 1]];
      Negatives(d[..|d| - 1]) + (if d[|d| - 1] < 0.0 then [d[|d| - 1]] else [])
  }

  function Abs(x: real): real { if x < 0.0 then -x else x }

  /** Mean gain over the leading window (0 when there is none). */
  function UpAverage(lead: seq<real>): (up: real)
    ensures up >= 0.0
  {
    var ups := NonNegatives(lead);
    if |ups| > 0 then MeanBounds(ups, 0.0, Max(ups)); Mean(ups) else 0.0
  }

  /** Absolute mean loss over the leading window (epsilon when there is none). */
  function DownAverage(lead: seq<real>): (down: real)
    ensures down > 0.0
  {
    var downs := Negatives(lead);
    if |downs| > 0 then SumNegative(downs); Abs(Mean(downs)) else RsiEpsilon
  }

  /** 100 - 100 / (1 + rs) for a non-negative relative strength. */
  function RsiOfStrength(rs: real): (r: real)
    requires rs >= 0.0
    ensures 0.0 <= r < 100.0
  {
    assert 0.0 < 100.0 / (1.0 + rs) <= 100.0;
    100.0 - 100.0 / (1.0 + rs)
  }

  /** RSI of a window of deltas: up-average over down-average. */
  function RsiOfLead(lead: seq<real>): (r: real)
    ensures 0.0 <= r < 100.0
  {
    RsiOfStrength(UpAverage(lead) / DownAverage(lead))
  }

  /** RSI from the FIRST 14 deltas of the close column (a fixed leading
      slice, not the most recent ones); neutral 50 with fewer than 14 deltas. */
  function Rsi(closes: seq<real>): (r: real)
    ensures |closes| <= RsiPeriod ==> r == RsiNeutral
    ensures 0.0 <= r < 100.0
  {
    var deltas := Deltas(closes);
    if |deltas| < RsiPeriod then RsiNeutral else RsiOfLead(deltas[..RsiPeriod])
  }

  /** Only the first 15 closes matter: appending or changing later history
      leaves the RSI unchanged. */
  lemma RsiDependsOnLeadingCloses(a: seq<real>, b: seq<real>)
    requires |a| > RsiPeriod && |b| > RsiPeriod
    requires a[..RsiPeriod + 1] == b[..RsiPeriod + 1]
    ensures Rsi(a) == Rsi(b)
  {
    var da := Deltas(a);
    var db := Deltas(b);
    forall i | 0 <= i < RsiPeriod ensures da[i] == db[i] {
      assert a[i] == a[..RsiPeriod + 1][i] == b[..RsiPeriod + 1][i] == b[i];
      assert a[i + 1] == a[..RsiPeriod + 1][i + 1] == b[..RsiPeriod + 1][i + 1] == b[i + 1];
    }
    assert da[..RsiPeriod] == db[..RsiPeriod];
    assert Rsi(a) == RsiOfLead(da[..RsiPeriod]);
    assert Rsi(b) == RsiOfLead(db[..RsiPeriod]);
  }

  /** A flat series has RSI 0: the up-average is 0 and the down value is the
      epsilon. */
  lemma RsiOfFlatSeries(closes: seq<real>)
    requires |closes| > RsiPeriod
    requires forall i :: 0 <= i < |closes| ==> closes[i] == closes[0]
    ensures Rsi(closes) == 0.0
  {
    var lead := Deltas(closes)[..RsiPeriod];
    assert forall i :: 0 <= i < |lead| ==> lead[i] == 0.0;
    RsiOfZeroLead(lead);
  }

  lemma RsiOfZeroLead(lead: seq<real>)
    requires forall i :: 0 <= i < |lead| ==> lead[i] == 0.0
    ensures RsiOfLead(lead) == 0.0
  {
    UpAverageOfZeros(lead);
    var down := DownAverage(lead);
    assert 0.0 / down == 0.0;
    assert RsiOfStrength(0.0) == 100.0 - 100.0 / 1.0 == 0.0;
  }

  lemma UpAverageOfZeros(lead: seq<real>)
    requires forall i :: 0 <= i < |lead| ==> lead[i] == 0.0
    ensures UpAverage(lead) == 0.0
  {
    var ups := NonNegatives(lead);
    assert forall i :: 0 <= i < |ups| ==> ups[i] == 0.0 by {
      forall i | 0 <= i < |ups| ensures ups[i] == 0.0 {
        assert ups[i] in lead;
      }
    }
    if |ups| > 0 {
      MeanBounds(ups, 0.0, 0.0);
    }
  }

  /** A series whose first 14 steps each rise by at least 0.000001 is
      overbought (RSI above 70). */
  lemma RsiOfRisingSeries(closes: seq<real>)
    requires |closes| > RsiPeriod
    requires forall i :: 0 <= i < RsiPeriod ==> closes[i + 1] - closes[i] >= 0.000001
    ensures Rsi(closes) > 70.0
  {
    var lead := Deltas(closes)[..RsiPeriod];
    assert forall i :: 0 <= i < |lead| ==> lead[i] >= 0.000001;
    AveragesOfGains(lead, 0.000001);
    StrengthAboveThreshold(UpAverage(lead));
    assert Rsi(closes) == RsiOfLead(lead);
  }

  /** When every delta is a gain of at least m, the up-average is at least m
      and the down value is the epsilon. */
  lemma AveragesOfGains(lead: seq<real>, m: real)
    requires |lead| > 0 && m > 0.0
    requires forall i :: 0 <= i < |lead| ==> lead[i] >= m
    ensures UpAverage(lead) >= m
    ensures DownAverage(lead) == RsiEpsilon
  {
    var ups := NonNegatives(lead);
    assert lead[0] in ups;
    assert forall i :: 0 <= i < |ups| ==> ups[i] >= m by {
      forall i | 0 <= i < |ups| ensures ups[i] >= m {
        assert ups[i] in lead;
      }
    }
    MeanBounds(ups, m, Max(ups));
    NoLosses(lead);
  }

  lemma {:induction false} NoLosses(d: seq<real>)
    requires forall i :: 0 <= i < |d| ==> d[i] >= 0.0
    ensures Negatives(d) == []
  {
    if |d| > 0 {
      NoLosses(d[..|d| - 1]);
    }
  }

  lemma StrengthAboveThreshold(up: real)
    requires up >= 0.000001
    ensures RsiOfStrength(up / RsiEpsilon) > 70.0
  {
    var rs := up / RsiEpsilon;
    assert rs >= 1000.0;
    assert 100.0 / (1.0 + rs) <= 100.0 / 1001.0;
  }

  /** Smoothing factor of pandas' ewm(span): 2 / (span + 1). */
  function Alpha(span: nat): (a: real)
    requires span >= 1
    ensures 0.0 < a <= 1.0
  {
    2.0 / ((span + 1) as real)
  }

  /** Last value of the unadjusted exponential moving average
      y0 = x0, yt = a*xt + (1 - a)*y(t-1). */
  function EmaLast(xs: seq<real>, a: real): (y: real)
    requires |xs| > 0
    requires 0.0 < a <= 1.0
    ensures Min(xs) <= y <= Max(xs)
  {
    if |xs| == 1 then xs[0]
    else
      var prev := EmaLast(xs[..|xs| - 1], a);
      var x := xs[|xs| - 1];
      ConvexBetween(x, prev, a, Min(xs), Max(xs));
      Smooth(a, x, prev)
  }

  /** One step of the recursion: a*x + (1 - a)*prev. */
  function Smooth(a: real, x: real, prev: real): real
  {
    a * x + (1.0 - a) * prev
  }

  lemma ConvexBetween(x: real, y: real, a: real, lo: real, hi: real)
    requires 0.0 < a <= 1.0
    requires lo <= x <= hi && lo <= y <= hi
    ensures lo <= Smooth(a, x, y) <= hi
  {
    NonNegProduct(a, x - lo);
    NonNegProduct(1.0 - a, y - lo);
    NonNegProduct(a, hi - x);
    NonNegProduct(1.0 - a, hi - y);
    assert a * x + (1.0 - a) * y - lo == a * (x - lo) + (1.0 - a) * (y - lo);
    assert hi - (a * x + (1.0 - a) * y) == a * (hi - x) + (1.0 - a) * (hi - y);
  }

  const FastSpan: nat := 12
  const SlowSpan: nat := 26

  /** MACD = EMA12 - EMA26 at the last close; 0 with fewer than 26 closes. */
  function Macd(closes: seq<real>): (m: real)
    ensures |closes| < SlowSpan ==> m == 0.0
    ensures |closes| >= SlowSpan ==> Abs(m) <= Max(closes) - Min(closes)
  {
    if |closes| < SlowSpan then 0.0
    else EmaLast(closes, Alpha(FastSpan)) - EmaLast(closes, Alpha(SlowSpan))
  }

  /** A constant price series has MACD exactly 0. */
  lemma MacdOfFlatSeries(closes: seq<real>)
    requires forall i :: 0 <= i < |closes| ==> closes[i] == closes[0]
    ensures Macd(closes) == 0.0
  {
    if |closes| >= SlowSpan {
      assert Max(closes) == closes[0] && Min(closes) == closes[0];
    }
  }

  ghost predicate NonDecreasing(xs: seq<real>)
  {
    forall i :: 0 < i < |xs| ==> xs[i - 1] <= xs[i]
  }

  /** On a non-decreasing series the faster average never trails the slower
      one, and neither exceeds the latest price. */
  lemma {:induction false} EmaOrderOnRisingSeries(xs: seq<real>, fast: real, slow: real)
    requires |xs| > 0 && NonDecreasing(xs)
    requires 0.0 < slow <= fast <= 1.0
    ensures EmaLast(xs, slow) <= EmaLast(xs, fast) <= xs[|xs| - 1]
  {
    if |xs| > 1 {
      var p := xs[..|xs| - 1];
      assert NonDecreasing(p) by {
        forall i | 0 < i < |p| ensures p[i - 1] <= p[i] {
          assert p[i - 1] == xs[i - 1] && p[i] == xs[i];
        }
      }
      EmaOrderOnRisingSeries(p, fast, slow);
      var x := xs[|xs| - 1];
      assert p[|p| - 1] == xs[|xs| - 2] <= x;
      var ef := EmaLast(p, fast);
      var es := EmaLast(p, slow);
      assert EmaLast(xs, fast) == Smooth(fast, x, ef);
      assert EmaLast(xs, slow) == Smooth(slow, x, es);
      EmaStepOrder(x, ef, es, fast, slow);
    }
  }

  lemma EmaStepOrder(x: real, ef: real, es: real, fast: real, slow: real)
    requires es <= ef <= x
    requires 0.0 < slow <= fast <= 1.0
    ensures Smooth(slow, x, es) <= Smooth(fast, x, ef) <= x
  {
    // difference = (fast - slow)(x - es) + (1 - fast)(ef - es)
    NonNegProduct(fast - slow, x - es);
    NonNegProduct(1.0 - fast, ef - es);
    NonNegProduct(1.0 - fast, x - ef);
    assert fast * x + (1.0 - fast) * ef - (slow * x + (1.0 - slow) * es)
        == (fast - slow) * (x - es) + (1.0 - fast) * (ef - es);
    assert x - (fast * x + (1.0 - fast) * ef) == (1.0 - fast) * (x - ef);
  }

  /** Rising prices give a non-negative MACD. */
  lemma MacdOfRisingSeries(closes: seq<real>)
    requires NonDecreasing(closes)
    ensures Macd(closes) >= 0.0
  {
    if |closes| >= SlowSpan {
      EmaOrderOnRisingSeries(closes, Alpha(FastSpan), Alpha(SlowSpan));
    }
  }

  /** On a non-decreasing series every exponential average stays at or
      above the first price. */
  lemma {:induction false} EmaAtLeastFirst(xs: seq<real>, a: real)
    requires |xs| > 0 && NonDecreasing(xs)
    requires 0.0 < a <= 1.0
    ensures xs[0] <= EmaLast(xs, a)
  {
    if |xs| > 1 {
      var p := xs[..|xs| - 1];
      assert NonDecreasing(p) by {
        forall i | 0 < i < |p| ensures p[i - 1] <= p[i] {
          assert p[i - 1] == xs[i - 1] && p[i] == xs[i];
        }
      }
      EmaAtLeastFirst(p, a);
      var x := xs[|xs| - 1];
      assert xs[0] == p[0];
      assert xs[0] <= x by { RisingEnds(xs); }
      ConvexBetween(x, EmaLast(p, a), a, xs[0], Max2(x, EmaLast(p, a)));
    }
  }

  /** The first element of a non-decreasing series is its lowest. */
  lemma {:induction false} RisingEnds(xs: seq<real>)
    requires |xs| > 0 && NonDecreasing(xs)
    ensures xs[0] <= xs[|xs| - 1]
  {
    if |xs| > 1 {
      var p := xs[..|xs| - 1];
      assert NonDecreasing(p) by {
        forall i | 0 < i < |p| ensures p[i - 1] <= p[i] {
          assert p[i - 1] == xs[i - 1] && p[i] == xs[i];
        }
      }
      RisingEnds(p);
      assert p[|p| - 1] == xs[|xs| - 2];
    }
  }

  /** On a non-decreasing series that actually rises, the faster average
      lies strictly above the slower one. */
  lemma {:induction false} EmaStrictOnRisingSeries(xs: seq<real>, fast: real, slow: real)
    requires |xs| > 0 && NonDecreasing(xs) && xs[0] < xs[|xs| - 1]
    requires 0.0 < slow < fast < 1.0
    ensures EmaLast(xs, slow) < EmaLast(xs, fast)
  {
    var p := xs[..|xs| - 1];
    assert NonDecreasing(p) by {
      forall i | 0 < i < |p| ensures p[i - 1] <= p[i] {
        assert p[i - 1] == xs[i - 1] && p[i] == xs[i];
      }
    }
    var x := xs[|xs| - 1];
    assert p[0] == xs[0];
    EmaOrderOnRisingSeries(p, fast, slow);
    assert p[|p| - 1] == xs[|xs| - 2] <= x;
    var ef := EmaLast(p, fast);
    var es := EmaLast(p, slow);
    assert EmaLast(xs, fast) == Smooth(fast, x, ef);
    assert EmaLast(xs, slow) == Smooth(slow, x, es);
    if p[0] < p[|p| - 1] {
      EmaStrictOnRisingSeries(p, fast, slow);
      EmaStepStrict(x, ef, es, fast, slow);
    } else {
      RisingEnds(p);
      EmaAtLeastFirst(p, slow);
      EmaStepStrict(x, ef, es, fast, slow);
    }
  }

  /** One smoothing step keeps the fast average strictly ahead once it is
      ahead, or puts it ahead when the new price is above the slow one. */
  lemma EmaStepStrict(x: real, ef: real, es: real, fast: real, slow: real)
    requires es <= ef <= x && (es < ef || es < x)
    requires 0.0 < slow < fast < 1.0
    ensures Smooth(slow, x, es) < Smooth(fast, x, ef)
  {
    // difference = (fast - slow)(x - es) + (1 - fast)(ef - es)
    var gap, rise := fast - slow, x - es;
    var keep, ahead := 1.0 - fast, ef - es;
    if es < ef {
      PosProduct(keep, ahead);
      NonNegProduct(gap, rise);
    } else {
      PosProduct(gap, rise);
      NonNegProduct(keep, ahead);
    }
    assert Smooth(fast, x, ef) - Smooth(slow, x, es) == gap * rise + keep * ahead;
  }

  /** A series of at least 26 closes that never falls and ends above where
      it started has a strictly positive MACD: the 12-span average leads the
      26-span one. */
  lemma MacdOfStrictlyRisingSeries(closes: seq<real>)
    requires |closes| >= SlowSpan && NonDecreasing(closes)
    requires closes[0] < closes[|closes| - 1]
    ensures Macd(closes) > 0.0
  {
    assert Alpha(SlowSpan) < Alpha(FastSpan) < 1.0;
    EmaStrictOnRisingSeries(closes, Alpha(FastSpan), Alpha(SlowSpan));
  }
}

=== FILE: market_state.dfy ===
/** The per-bar market state of the RL trader and the NaN cleaning applied
    before it is sent to the policy oracle. */
module MarketStates {
  import opened Common
  import opened Bars
  import opened Indicators

  /** The fixed spread written into every state. */
  const StateSpread: real := 0.0002

  datatype MarketState = MarketState(price: real, spread: real, volume: real, rsi: real, macd: real)

  /** State of one row. A row's own `rsi`/`macd` column wins over the
      computed value; the computed values read the close column of the whole
      history, never the row. */
  function GetMarketState(row: Bar, history: seq<Bar>): (s: MarketState)
    ensures s.price == row.close && s.volume == row.volume && s.spread == StateSpread
    ensures row.rsi.Some? ==> s.rsi == row.rsi.value
    ensures row.macd.Some? ==> s.macd == row.macd.value
    ensures row.rsi.None? ==> 0.0 <= s.rsi < 100.0
    ensures row.rsi.None? && |history| <= RsiPeriod ==> s.rsi == RsiNeutral
    ensures row.macd.None? && |history| < SlowSpan ==> s.macd == 0.0
    ensures row.rsi.None? ==> s.rsi == Rsi(Closes(history))
    ensures row.macd.None? ==> s.macd == Macd(Closes(history))
  {
    var closes := Closes(history);
    MarketState(row.close, StateSpread, row.volume,
                row.rsi.GetOr(Rsi(closes)), row.macd.GetOr(Macd(closes)))
  }

  /** Two rows without indicator columns that share close and volume give the
      same state, whatever their timestamps: the state only sees the history. */
  lemma StateIgnoresRowBeyondCloseAndVolume(r1: Bar, r2: Bar, history: seq<Bar>)
    requires r1.rsi.None? && r2.rsi.None? && r1.macd.None? && r2.macd.None?
    requires r1.close == r2.close && r1.volume == r2.volume
    ensures GetMarketState(r1, history) == GetMarketState(r2, history)
  {
  }

  /** A number as the trader sees it: a finite float or NaN. */
  datatype Num = Finite(v: real) | NaN

  /** A state whose fields may be NaN, and its cleaned form with NaN mapped
      to None (JSON null). */
  datatype RawState = RawState(price: Num, spread: Num, volume: Num, rsi: Num, macd: Num)
  datatype Cleaned = Cleaned(price: Option<real>, spread: Option<real>, volume: Option<real>,
                             rsi: Option<real>, macd: Option<real>)

  function CleanField(n: Num): (o: Option<real>)
    ensures o.None? <==> n.NaN?
    ensures n.Finite? ==> o == Some(n.v)
  {
    match n
    case NaN => None
    case Finite(v) => Some(v)
  }

  function CleanState(s: RawState): (c: Cleaned)
    ensures c.price.None? <==> s.price.NaN?
    ensures c.spread.None? <==> s.spread.NaN?
    ensures c.volume.None? <==> s.volume.NaN?
    ensures c.rsi.None? <==> s.rsi.NaN?
    ensures c.macd.None? <==> s.macd.NaN?
    ensures s.price.Finite? ==> c.price == Some(s.price.v)
    ensures s.spread.Finite? ==> c.spread == Some(s.spread.v)
    ensures s.volume.Finite? ==> c.volume == Some(s.volume.v)
    ensures s.rsi.Finite? ==> c.rsi == Some(s.rsi.v)
    ensures s.macd.Finite? ==> c.macd == Some(s.macd.v)
  {
    Cleaned(CleanField(s.price), CleanField(s.spread), CleanField(s.volume),
               CleanField(s.rsi), CleanField(s.macd))
  }

  function AsRaw(s: MarketState): RawState
  {
    RawState(Finite(s.price), Finite(s.spread), Finite(s.volume), Finite(s.rsi), Finite(s.macd))
  }

  /** Cleaning keeps every finite field unchanged, so the states the builder
      produces pass through cleaning intact. */
  lemma CleanKeepsFiniteState(s: MarketState)
    ensures CleanState(AsRaw(s)) == Cleaned(Some(s.price), Some(s.spread), Some(s.volume),
                                            Some(s.rsi), Some(s.macd))
  {
  }
}

=== FILE: paper_trading.dfy ===
/** The paper-trading ledger: a cash balance and an append-only list of
    simulated positions. */
module Paper {
  import opened Stats

  /** MetaTrader5.ORDER_TYPE_BUY; every other order type counts as a sell. */
  const OrderTypeBuy: int := 0

  /** A recorded position; `time` is the clock reading passed in. */
  datatype Position = Position(symbol: string, volume: real, kind: string, price: real, time: real)

  datatype PaperAccount = PaperAccount(balance: real, positions: seq<Position>)

  /** The constructor; its default opening balance is 10000. */
  function NewAccount(initialBalance: real := 10000.0): (a: PaperAccount)
    ensures a.balance == initialBalance && a.positions == []
  {
    PaperAccount(initialBalance, [])
  }

  function KindOf(orderType: int): (k: string)
    ensures k == "BUY" <==> orderType == OrderTypeBuy
    ensures k == "SELL" <==> orderType != OrderTypeBuy
  {
    if orderType == OrderTypeBuy then "BUY" else "SELL"
  }

  /** execute_trade: record the position, then pay for a buy or collect for
      anything else, with no commission or slippage. */
  function ExecuteTrade(a: PaperAccount, symbol: string, volume: real, orderType: int, price: real,
                        now: real): (r: PaperAccount)
    ensures |r.positions| == |a.positions| + 1
    ensures r.positions[..|a.positions|] == a.positions
    ensures r.positions[|a.positions|] == Position(symbol, volume, KindOf(orderType), price, now)
    ensures orderType == OrderTypeBuy ==> r.balance == a.balance - volume * price
    ensures orderType != OrderTypeBuy ==> r.balance == a.balance + volume * price
  {
    var p := Position(symbol, volume, KindOf(orderType), price, now);
    var balance := if orderType == OrderTypeBuy then a.balance - volume * price
                   else a.balance + volume * price;
    PaperAccount(balance, a.positions + [p])
  }

  function GetBalance(a: PaperAccount): real
  {
    a.balance
  }

  function GetPositions(a: PaperAccount): seq<Position>
  {
    a.positions
  }

  /** A buy and a sell of the same volume at the same price cancel out. */
  lemma BuyThenSellRestoresBalance(a: PaperAccount, symbol: string, volume: real, sellType: int,
                                   price: real, t1: real, t2: real)
    requires sellType != OrderTypeBuy
    ensures GetBalance(ExecuteTrade(ExecuteTrade(a, symbol, volume, OrderTypeBuy, price, t1),
                                    symbol, volume, sellType, price, t2)) == GetBalance(a)
  {
  }

  /** The cash effect of a recorded position. */
  function CashFlow(p: Position): real
  {
    if p.kind == "BUY" then -(p.volume * p.price) else p.volume * p.price
  }

  function LedgerCash(ps: seq<Position>): real
  {
    if |ps| == 0 then 0.0 else LedgerCash(ps[..|ps| - 1]) + CashFlow(ps[|ps| - 1])
  }

  datatype Order = Order(symbol: string, volume: real, orderType: int, price: real, time: real)

  function Replay(a: PaperAccount, orders: seq<Order>): PaperAccount
  {
    if |orders| == 0 then a
    else
      var o := orders[|orders| - 1];
      ExecuteTrade(Replay(a, orders[..|orders| - 1]), o.symbol, o.volume, o.orderType, o.price, o.time)
  }

  /** The balance can be rebuilt from the ledger: the opening balance plus
      the cash flow of every recorded position. */
  lemma {:induction false} BalanceMatchesLedger(initialBalance: real, orders: seq<Order>)
    ensures var a := Replay(NewAccount(initialBalance), orders);
      |a.positions| == |orders| && a.balance == initialBalance + LedgerCash(a.positions)
  {
    if |orders| > 0 {
      var prev := Replay(NewAccount(initialBalance), orders[..|orders| - 1]);
      BalanceMatchesLedger(initialBalance, orders[..|orders| - 1]);
      var a := Replay(NewAccount(initialBalance), orders);
      assert a.positions[..|a.positions| - 1] == prev.positions;
    }
  }
}

=== FILE: policy.dfy ===
/** Action selection of the RL trader: the oracle's reply is normalised
    (whitespace stripped, upper-cased) and accepted when it names an action;
    otherwise an RSI threshold rule decides. */
module Policy {
  import opened Common
  import opened Stats
  import opened Bars
  import opened Indicators
  import opened MarketStates

  /** What the oracle subprocess produced. A non-zero exit and a timeout are
      swallowed by the trader; any other failure (the executable missing,
      undecodable output, ...) propagates as an exception. */
  datatype OracleReply = Replied(stdout: string) | NonZeroExit | TimedOut | Crashed

  /** The characters Python's str.strip() removes by default. */
  predicate IsSpace(c: char)
  {
    || c == ' ' || c == '\t' || c == '\n' || c == '\r' || c == '\U{0B}' || c == '\U{0C}'
    || '\U{1C}' <= c <= '\U{1F}' || c == '\U{85}' || c == '\U{A0}' || c == '\U{1680}'
    || '\U{2000}' <= c <= '\U{200A}' || c == '\U{2028}' || c == '\U{2029}'
    || c == '\U{202F}' || c == '\U{205F}' || c == '\U{3000}'
  }

  ghost predicate AllSpace(s: string)
  {
    forall k :: 0 <= k < |s| ==> IsSpace(s[k])
  }

  lemma SpaceCons(c: char, t: string)
    requires IsSpace(c) && AllSpace(t)
    ensures AllSpace([c] + t)
  {
    forall k | 0 <= k < |[c] + t| ensures IsSpace(([c] + t)[k]) {
      if k > 0 {
        assert ([c] + t)[k] == t[k - 1];
      }
    }
  }

  function TrimStart(s: string): (r: string)
    ensures |r| <= |s| && r == s[|s| - |r|..]
    ensures |r| > 0 ==> !IsSpace(r[0])
    ensures AllSpace(s[..|s| - |r|])
  {
    if |s| > 0 && IsSpace(s[0]) then
      var rest := s[1..];
      var r := TrimStart(rest);
      var cut := |s| - |r|;
      assert rest[..cut - 1] == s[1..cut];
      assert s[..cut] == [s[0]] + rest[..cut - 1];
      SpaceCons(s[0], rest[..cut - 1]);
      assert r == rest[cut - 1..] == s[cut..];
      r
    else s
  }

  function TrimEnd(s: string): (r: string)
    ensures |r| <= |s| && r == s[..|r|]
    ensures |r| > 0 ==> !IsSpace(r[|r| - 1])
    ensures AllSpace(s[|r|..])
  {
    if |s| > 0 && IsSpace(s[|s| - 1]) then
      var r := TrimEnd(s[..|s| - 1]);
      assert s[..|s| - 1][|r|..] == s[|r|..|s| - 1];
      r
    else s
  }

  /** str.strip(): the longest slice with no stripped character at either end. */
  function Strip(s: string): string
  {
    TrimEnd(TrimStart(s))
  }

  /** str.upper() on the characters that can spell an action: ASCII letters,
      and the long s, whose upper case is 'S'. */
  function UpperChar(c: char): char
  {
    if 'a' <= c <= 'z' then (c as int - 32) as char
    else if c == '\U{17F}' then 'S'
    else c
  }

  function Upper(s: string): (u: string)
    ensures |u| == |s|
    ensures forall k :: 0 <= k < |s| ==> u[k] == UpperChar(s[k])
  {
    seq(|s|, k requires 0 <= k < |s| => UpperChar(s[k]))
  }

  function Normalize(reply: string): string
  {
    Upper(Strip(reply))
  }

  /** The oracle's token, if its normalised text is one of the three actions. */
  function ParseAction(reply: string): (a: Option<Action>)
    ensures a.Some? <==> Normalize(reply) in {"BUY", "SELL", "HOLD"}
    ensures a.Some? ==> ActionText(a.value) == Normalize(reply)
  {
    var t := Normalize(reply);
    if t == "BUY" then Some(Buy)
    else if t == "SELL" then Some(Sell)
    else if t == "HOLD" then Some(Hold)
    else None
  }

  lemma {:induction false} TrimStartPastSpaces(pre: string, u: string)
    requires AllSpace(pre) && |u| > 0 && !IsSpace(u[0])
    ensures TrimStart(pre + u) == u
  {
    if |pre| > 0 {
      assert (pre + u)[1..] == pre[1..] + u;
      TrimStartPastSpaces(pre[1..], u);
    } else {
      assert pre + u == u;
    }
  }

  lemma {:induction false} TrimEndPastSpaces(u: string, post: string)
    requires AllSpace(post) && |u| > 0 && !IsSpace(u[|u| - 1])
    ensures TrimEnd(u + post) == u
  {
    if |post| > 0 {
      var shorter := post[..|post| - 1];
      assert (u + post)[..|u + post| - 1] == u + shorter;
      TrimEndPastSpaces(u, shorter);
    } else {
      assert u + post == u;
    }
  }

  /** An action name, in any letter case the upper-casing undoes, neither
      starts nor ends with whitespace. */
  lemma ActionWordEnds(a: Action, word: string)
    requires Upper(word) == ActionText(a)
    ensures |word| > 0 && !IsSpace(word[0]) && !IsSpace(word[|word| - 1])
  {
    assert |word| == |ActionText(a)|;
    assert UpperChar(word[0]) == ActionText(a)[0];
    assert UpperChar(word[|word| - 1]) == ActionText(a)[|word| - 1];
  }

  /** Stripping removes exactly the whitespace padding around a word that
      neither starts nor ends with whitespace. */
  lemma StripPadded(pre: string, word: string, post: string)
    requires AllSpace(pre) && AllSpace(post)
    requires |word| > 0 && !IsSpace(word[0]) && !IsSpace(word[|word| - 1])
    ensures Strip(pre + word + post) == word
  {
    assert pre + word + post == pre + (word + post);
    TrimStartPastSpaces(pre, word + post);
    TrimEndPastSpaces(word, post);
  }

  /** An action name padded with whitespace, in any mix of letter case the
      upper-casing undoes, is read back as that action. */
  lemma ParseActionText(a: Action, pre: string, word: string, post: string)
    requires AllSpace(pre) && AllSpace(post)
    requires Upper(word) == ActionText(a)
    ensures ParseAction(pre + word + post) == Some(a)
  {
    ActionWordEnds(a, word);
    StripPadded(pre, word, post);
    assert Normalize(pre + word + post) == ActionText(a);
  }

  /** Example: a lower-case reply with a trailing newline is accepted. */
  lemma ParseLowerCaseReply()
    ensures ParseAction("sell\n") == Some(Sell)
  {
    assert "sell\n" == [] + "sell" + "\n";
    assert Upper("sell") == "SELL";
    ParseActionText(Sell, [], "sell", "\n");
  }

  const OversoldBelow: real := 30.0
  const OverboughtAbove: real := 70.0

  /** The fallback rule on the state's RSI. */
  function Fallback(rsi: real): (a: Action)
    ensures a == Buy <==> rsi < OversoldBelow
    ensures a == Sell <==> rsi > OverboughtAbove
    ensures a == Hold <==> OversoldBelow <= rsi <= OverboughtAbove
  {
    if rsi < OversoldBelow then Buy
    else if rsi > OverboughtAbove then Sell
    else Hold
  }

  /** Row whose state is sent to the oracle: the episode count wraps around
      the history. */
  function ActionIndex(episodes: nat, n: nat): (i: nat)
    requires n > 0
    ensures i < n
    ensures episodes < n ==> i == episodes
  {
    episodes % n
  }

  /** Training that cycles once more through the history queries the same row. */
  lemma ActionIndexPeriodic(episodes: nat, n: nat)
    requires n > 0
    ensures ActionIndex(episodes + n, n) == ActionIndex(episodes, n)
  {
    var q := episodes / n;
    var r := episodes % n;
    assert episodes == q * n + r;
    assert episodes + n == (q + 1) * n + r;
    ModUnique(episodes + n, n, q + 1, r);
  }

  /** get_action. The rsi the fallback reads is the cleaned state's, which
      equals the built state's (CleanKeepsFiniteState). An empty history makes
      the modulo raise ZeroDivisionError. */
  function GetAction(history: seq<Bar>, episodes: nat, reply: OracleReply): (r: Result<Action, Fault>)
    ensures |history| == 0 <==> r == Err(ZeroDivision)
    ensures |history| > 0 && reply.Crashed? <==> r == Err(OracleCrashed)
    ensures r.Ok? <==> |history| > 0 && !reply.Crashed?
    ensures r.Ok? && reply.Replied? && ParseAction(reply.stdout).Some? ==>
              r.value == ParseAction(reply.stdout).value
    ensures r.Ok? && !(reply.Replied? && ParseAction(reply.stdout).Some?) ==>
              r.value == Fallback(GetMarketState(history[ActionIndex(episodes, |history|)], history).rsi)
  {
    if |history| == 0 then Err(ZeroDivision)
    else
      var state := GetMarketState(history[ActionIndex(episodes, |history|)], history);
      match reply
      case Crashed => Err(OracleCrashed)
      case Replied(out) =>
        (match ParseAction(out)
         case Some(a) => Ok(a)
         case None => Ok(Fallback(state.rsi)))
      case _ => Ok(Fallback(state.rsi))
  }

  /** With the oracle unavailable and a history of steadily rising closes (and
      no precomputed rsi column), the fallback sells. */
  lemma RisingHistorySellsOnFallback(history: seq<Bar>, episodes: nat)
    requires |history| > RsiPeriod
    requires forall i :: 0 <= i < |history| ==> history[i].rsi.None?
    requires forall i :: 0 <= i < RsiPeriod ==> history[i + 1].close - history[i].close >= 0.000001
    ensures GetAction(history, episodes, TimedOut) == Ok(Sell)
  {
    var closes := Closes(history);
    RsiOfRisingSeries(closes);
  }
}

=== FILE: reward.dfy ===
/** The reward of one trade decision: a spread-adjusted pip move, scaled by a
    volatility-sized position and the risk factor, clipped to +-1000. */
module Rewards {
  import opened Common
  import opened Stats
  import opened MarketStates

  /** The environment-configurable parameters, read on every call. The
      volatility window is read but only feeds the volatility estimate, which
      is an input here. */
  datatype RewardConfig = RewardConfig(transactionCost: real, riskFactor: real, volatilityWindow: int,
                                       minSize: real, maxSize: real, defaultReward: real)

  const DefaultConfig: RewardConfig := RewardConfig(0.0005, 0.15, 14, 0.01, 1.0, -0.1)

  const DefaultStateSpread: real := 0.0002
  const VolatilityFloor: real := 0.00001
  const PipsPerUnit: real := 10000.0
  const RewardBound: real := 1000.0

  /** The two state entries the reward reads, as dictionary lookups that may
      miss: a missing current price reads 0, a missing next price reads the
      current price, a missing spread reads 0.0002. */
  datatype PriceView = PriceView(price: Option<real>, spread: Option<real>)

  function View(s: MarketState): PriceView
  {
    PriceView(Some(s.price), Some(s.spread))
  }

  function CurrentPrice(state: PriceView): real
  {
    state.price.GetOr(0.0)
  }

  function PriceMove(state: PriceView, next: PriceView): real
  {
    next.price.GetOr(CurrentPrice(state)) - CurrentPrice(state)
  }

  /** State spread plus the transaction cost. */
  function Cost(cfg: RewardConfig, state: PriceView): real
  {
    state.spread.GetOr(DefaultStateSpread) + cfg.transactionCost
  }

  /** Risk over (floored) volatility, clipped to the configured size range. */
  function PositionSize(cfg: RewardConfig, volatility: real): (size: real)
    ensures cfg.minSize <= cfg.maxSize ==> cfg.minSize <= size <= cfg.maxSize
    ensures cfg.riskFactor >= 0.0 && cfg.maxSize >= 0.0 ==> size >= 0.0
    ensures (cfg.minSize <= cfg.riskFactor / Max2(volatility, VolatilityFloor) <= cfg.maxSize)
              ==> size == cfg.riskFactor / Max2(volatility, VolatilityFloor)
    ensures (cfg.minSize <= cfg.maxSize && cfg.riskFactor / Max2(volatility, VolatilityFloor) < cfg.minSize)
              ==> size == cfg.minSize
    ensures (cfg.minSize <= cfg.maxSize && cfg.riskFactor / Max2(volatility, VolatilityFloor) > cfg.maxSize)
              ==> size == cfg.maxSize
    ensures cfg.maxSize < cfg.minSize ==> size == cfg.maxSize
  {
    var floored := Max2(volatility, VolatilityFloor);
    assert cfg.riskFactor >= 0.0 ==> cfg.riskFactor / floored >= 0.0;
    Clip(cfg.riskFactor / floored, cfg.minSize, cfg.maxSize)
  }

  /** Pips earned by a buy or a sell: the move in the trade's favour, net of
      the cost. */
  function Pips(action: Action, move: real, cost: real): real
    requires action != Hold
  {
    if action == Buy then (move - cost) * PipsPerUnit else (-move - cost) * PipsPerUnit
  }

  /** The risk-adjusted value before clipping. */
  function Scaled(cfg: RewardConfig, action: Action, move: real, cost: real, size: real): real
    requires action != Hold
  {
    Pips(action, move, cost) * size * (1.0 - cfg.riskFactor)
  }

  /** The reward for a given move, cost and position size. */
  function RewardOf(cfg: RewardConfig, action: Action, move: real, cost: real, size: real): real
  {
    if action == Hold then cfg.defaultReward
    else Clip(Scaled(cfg, action, move, cost, size), -RewardBound, RewardBound)
  }

  /** calculate_reward with the volatility estimate supplied. */
  function Reward(cfg: RewardConfig, action: Action, state: PriceView, next: PriceView,
                  volatility: real): (r: real)
    ensures action == Hold ==> r == cfg.defaultReward
    ensures action != Hold ==> -RewardBound <= r <= RewardBound
    ensures (action != Hold
             && -RewardBound <= Scaled(cfg, action, PriceMove(state, next), Cost(cfg, state),
                                       PositionSize(cfg, volatility)) <= RewardBound)
              ==> r == Scaled(cfg, action, PriceMove(state, next), Cost(cfg, state),
                              PositionSize(cfg, volatility))
    ensures (action != Hold
             && Scaled(cfg, action, PriceMove(state, next), Cost(cfg, state),
                       PositionSize(cfg, volatility)) > RewardBound) ==> r == RewardBound
    ensures (action != Hold
             && Scaled(cfg, action, PriceMove(state, next), Cost(cfg, state),
                       PositionSize(cfg, volatility)) < -RewardBound) ==> r == -RewardBound
  {
    RewardOf(cfg, action, PriceMove(state, next), Cost(cfg, state), PositionSize(cfg, volatility))
  }


  lemma ScaleMonotone(x: real, y: real, k: real)
    requires x <= y && k >= 0.0
    ensures x * k <= y * k
  {
    NonNegProduct(y - x, k);
    assert y * k - x * k == (y - x) * k;
  }

  /** Scaling by a positive factor keeps the sign. */
  lemma SignOfScaled(x: real, k: real)
    requires k > 0.0
    ensures x * k > 0.0 <==> x > 0.0
  {
    if x <= 0.0 {
      ScaleMonotone(x, 0.0, k);
    }
  }

  lemma ScaledMonotone(cfg: RewardConfig, m1: real, m2: real, cost: real, size: real)
    requires m1 <= m2 && size >= 0.0 && cfg.riskFactor <= 1.0
    ensures Scaled(cfg, Buy, m1, cost, size) <= Scaled(cfg, Buy, m2, cost, size)
  {
    var p1 := Pips(Buy, m1, cost);
    var p2 := Pips(Buy, m2, cost);
    assert p1 <= p2;
    ScaleMonotone(p1, p2, size);
    ScaleMonotone(p1 * size, p2 * size, 1.0 - cfg.riskFactor);
  }

  /** Evaluated on one state for both "now" and "next" (as training does),
      the move is zero: buying and selling earn the same, and with a
      non-negative cost, a risk factor in [0, 1] and a non-negative size
      cap, that reward is never positive. */
  lemma SameStateReward(cfg: RewardConfig, state: PriceView, volatility: real)
    ensures Reward(cfg, Buy, state, state, volatility) == Reward(cfg, Sell, state, state, volatility)
    ensures (Cost(cfg, state) >= 0.0 && 0.0 <= cfg.riskFactor <= 1.0 && cfg.maxSize >= 0.0)
              ==> Reward(cfg, Buy, state, state, volatility) <= 0.0
  {
    var cost := Cost(cfg, state);
    var size := PositionSize(cfg, volatility);
    assert PriceMove(state, state) == 0.0;
    assert Pips(Buy, 0.0, cost) == Pips(Sell, 0.0, cost);
    assert Scaled(cfg, Buy, 0.0, cost, size) == Scaled(cfg, Sell, 0.0, cost, size);
    if cost >= 0.0 && 0.0 <= cfg.riskFactor <= 1.0 && cfg.maxSize >= 0.0 {
      ScaledMonotone(cfg, 0.0, cost, cost, size);
      assert Pips(Buy, cost, cost) == 0.0;
      assert Scaled(cfg, Buy, cost, cost, size) == 0.0;
    }
  }

  /** A state without a next price is scored as if the price had not moved. */
  lemma MissingNextPriceMeansNoMove(cfg: RewardConfig, action: Action, state: PriceView,
                                    spread: Option<real>, volatility: real)
    ensures Reward(cfg, action, state, PriceView(None, spread), volatility)
         == Reward(cfg, action, state, state, volatility)
  {
    assert PriceMove(state, PriceView(None, spread)) == 0.0 == PriceMove(state, state);
  }

  /** A sell is scored as a buy of the mirrored move. */
  lemma SellMirrorsBuy(cfg: RewardConfig, state: PriceView, p: real, move: real, volatility: real)
    requires state.price == Some(p)
    ensures Reward(cfg, Sell, state, PriceView(Some(p + move), None), volatility)
         == Reward(cfg, Buy, state, PriceView(Some(p - move), None), volatility)
  {
    var cost := Cost(cfg, state);
    var size := PositionSize(cfg, volatility);
    assert PriceMove(state, PriceView(Some(p + move), None)) == move;
    assert PriceMove(state, PriceView(Some(p - move), None)) == -move;
    assert Pips(Sell, move, cost) == Pips(Buy, -move, cost);
    assert Scaled(cfg, Sell, move, cost, size) == Scaled(cfg, Buy, -move, cost, size);
    assert RewardOf(cfg, Sell, move, cost, size) == RewardOf(cfg, Buy, -move, cost, size);
  }

  /** The higher the next price, the higher a buy's reward (for a risk factor
      at most 1 and a non-negative size cap). */
  lemma BuyRewardMonotone(cfg: RewardConfig, state: PriceView, lo: real, hi: real, volatility: real)
    requires lo <= hi
    requires 0.0 <= cfg.riskFactor <= 1.0 && cfg.maxSize >= 0.0
    ensures Reward(cfg, Buy, state, PriceView(Some(lo), None), volatility)
         <= Reward(cfg, Buy, state, PriceView(Some(hi), None), volatility)
  {
    var cost := Cost(cfg, state);
    var size := PositionSize(cfg, volatility);
    var ml := PriceMove(state, PriceView(Some(lo), None));
    var mh := PriceMove(state, PriceView(Some(hi), None));
    assert ml <= mh;
    ScaledMonotone(cfg, ml, mh, cost, size);
  }

  /** With a positive minimum size and a risk factor below 1, a buy earns a
      positive reward exactly when the price rises by more than the cost. */
  lemma BuyRewardPositiveIff(cfg: RewardConfig, state: PriceView, next: PriceView, volatility: real)
    requires 0.0 < cfg.minSize <= cfg.maxSize
    requires 0.0 <= cfg.riskFactor < 1.0
    ensures Reward(cfg, Buy, state, next, volatility) > 0.0
        <==> PriceMove(state, next) > Cost(cfg, state)
  {
    var move := PriceMove(state, next);
    var cost := Cost(cfg, state);
    var size := PositionSize(cfg, volatility);
    ScaledPositiveIff(cfg, move, cost, size);
    var scaled := Scaled(cfg, Buy, move, cost, size);
    ClipSign(scaled, RewardBound);
    assert Reward(cfg, Buy, state, next, volatility) == Clip(scaled, -RewardBound, RewardBound);
  }

  /** For a positive size and a risk factor below 1, the scaled buy value is
      positive exactly when the move beats the cost. */
  lemma ScaledPositiveIff(cfg: RewardConfig, move: real, cost: real, size: real)
    requires size > 0.0 && cfg.riskFactor < 1.0
    ensures Scaled(cfg, Buy, move, cost, size) > 0.0 <==> move > cost
  {
    var pips := Pips(Buy, move, cost);
    assert pips > 0.0 <==> move > cost;
    SignOfScaled(pips, size);
    SignOfScaled(pips * size, 1.0 - cfg.riskFactor);
  }

  /** Clipping to a symmetric positive range keeps the sign. */
  lemma ClipSign(x: real, bound: real)
    requires bound > 0.0
    ensures Clip(x, -bound, bound) > 0.0 <==> x > 0.0
  {
  }
}

=== FILE: stats.dfy ===
/** Sums, means, extrema and clipping over sequences of exact reals. */
module Stats {

  function Sum(xs: seq<real>): real
  {
    if |xs| == 0 then 0.0 else Sum(xs[..|xs| - 1]) + xs[|xs| - 1]
  }

  function Mean(xs: seq<real>): real
    requires |xs| > 0
  {
    Sum(xs) / (|xs| as real)
  }

  ghost predicate Bounded(xs: seq<real>, lo: real, hi: real)
  {
    forall i :: 0 <= i < |xs| ==> lo <= xs[i] <= hi
  }

  lemma {:induction false} SumBounds(xs: seq<real>, lo: real, hi: real)
    requires Bounded(xs, lo, hi)
    ensures lo * (|xs| as real) <= Sum(xs) <= hi * (|xs| as real)
  {
    if |xs| > 0 {
      SumBounds(xs[..|xs| - 1], lo, hi);
    }
  }

  /** A mean lies between any lower and upper bound of its terms. */
  lemma MeanBounds(xs: seq<real>, lo: real, hi: real)
    requires |xs| > 0 && Bounded(xs, lo, hi)
    ensures lo <= Mean(xs) <= hi
  {
    SumBounds(xs, lo, hi);
    var n := |xs| as real;
    assert lo * n / n == lo && hi * n / n == hi;
  }

  /** Sum of terms all strictly below zero is strictly below zero. */
  lemma {:induction false} SumNegative(xs: seq<real>)
    requires |xs| > 0
    requires forall i :: 0 <= i < |xs| ==> xs[i] < 0.0
    ensures Sum(xs) < 0.0
  {
    if |xs| > 1 {
      SumNegative(xs[..|xs| - 1]);
    }
  }

  function Max(xs: seq<real>): (m: real)
    requires |xs| > 0
    ensures m in xs
    ensures forall i :: 0 <= i < |xs| ==> xs[i] <= m
  {
    if |xs| == 1 then xs[0]
    else
      var rest := Max(xs[..|xs| - 1]);
      if xs[|xs| - 1] > rest then xs[|xs| - 1] else rest
  }

  function Min(xs: seq<real>): (m: real)
    requires |xs| > 0
    ensures m in xs
    ensures forall i :: 0 <= i < |xs| ==> m <= xs[i]
  {
    if |xs| == 1 then xs[0]
    else
      var rest := Min(xs[..|xs| - 1]);
      if xs[|xs| - 1] < rest then xs[|xs| - 1] else rest
  }

  function Max2(a: real, b: real): real { if a >= b then a else b }

  function Min2(a: real, b: real): real { if a <= b then a else b }

  /** numpy.clip(x, lo, hi), which is minimum(maximum(x, lo), hi): when the
      bounds are crossed (lo > hi) the result is hi. */
  function Clip(x: real, lo: real, hi: real): (r: real)
    ensures lo <= hi ==> lo <= r <= hi
    ensures lo <= x <= hi ==> r == x
    ensures hi < lo ==> r == hi
    ensures lo <= hi && x < lo ==> r == lo
    ensures lo <= hi && x > hi ==> r == hi
  {
    Min2(Max2(x, lo), hi)
  }

  lemma NonNegProduct(a: real, b: real)
    requires a >= 0.0 && b >= 0.0
    ensures a * b >= 0.0
  {
  }

  lemma PosProduct(a: real, b: real)
    requires a > 0.0 && b > 0.0
    ensures a * b > 0.0
  {
  }

  lemma MulAtLeast(d: int, n: int)
    requires d >= 1 && n > 0
    ensures d * n >= n
  {
    assert d * n == n + (d - 1) * n;
    assert (d - 1) * n >= 0;
  }

  /** Euclidean division is unique: x = q*n + r with 0 <= r < n fixes r. */
  lemma ModUnique(x: int, n: int, q: int, r: int)
    requires n > 0 && 0 <= r < n && x == q * n + r
    ensures x % n == r
    ensures x / n == q
  {
    var q', r' := x / n, x % n;
    assert x == q' * n + r';
    assert (q - q') * n == r' - r;
    assert (q' - q) * n == r - r';
    if q - q' >= 1 {
      MulAtLeast(q - q', n);
    } else if q' - q >= 1 {
      MulAtLeast(q' - q, n);
    }
  }
}

=== FILE: trade_manager.dfy ===
/** Order discipline of the candle strategy: at most `maxOrders` open trades,
    all entered at the price of the first one; a signal reversal closes
    them all. */
module Orders {

  datatype Trade = Trade(signal: string, price: real)

  datatype TradeManager = TradeManager(activeTrades: seq<Trade>, maxOrders: nat)

  const DefaultMaxOrders: nat := 10

  function NewManager(): (m: TradeManager)
    ensures m.activeTrades == [] && m.maxOrders == DefaultMaxOrders
  {
    TradeManager([], DefaultMaxOrders)
  }

  /** Why an entry is refused. enter_trade only logs the refusal message, so
      its text is not modelled; the price refusal keeps the two prices it
      reports. */
  datatype Refusal = MaxOrdersReached | PriceDiffers(price: real, initialPrice: real)

  datatype Admission = Admitted | Refused(reason: Refusal)

  /** The cap is checked before the price. */
  function CanEnterTrade(m: TradeManager, price: real): (a: Admission)
    ensures a == Refused(MaxOrdersReached) <==> |m.activeTrades| >= m.maxOrders
    ensures a.Refused? && a.reason.PriceDiffers? <==>
              |m.activeTrades| < m.maxOrders && |m.activeTrades| > 0 && price != m.activeTrades[0].price
    ensures a.Refused? && a.reason.PriceDiffers? ==>
              a.reason == PriceDiffers(price, m.activeTrades[0].price)
    ensures a == Admitted <==>
              |m.activeTrades| < m.maxOrders && (|m.activeTrades| == 0 || price == m.activeTrades[0].price)
  {
    if |m.activeTrades| >= m.maxOrders then Refused(MaxOrdersReached)
    else if |m.activeTrades| > 0 && price != m.activeTrades[0].price then
      Refused(PriceDiffers(price, m.activeTrades[0].price))
    else Admitted
  }

  /** Book invariant: within the cap, and every open trade at one price. */
  ghost predicate Inv(m: TradeManager)
  {
    && |m.activeTrades| <= m.maxOrders
    && forall i :: 0 <= i < |m.activeTrades| ==> m.activeTrades[i].price == m.activeTrades[0].price
  }

  /** enter_trade: append on admission, otherwise change nothing. */
  function EnterTrade(m: TradeManager, trade: Trade): (r: (TradeManager, bool))
    ensures r.1 <==> CanEnterTrade(m, trade.price) == Admitted
    ensures !r.1 ==> r.0 == m
    ensures r.1 ==> r.0 == m.(activeTrades := m.activeTrades + [trade])
    ensures Inv(m) ==> Inv(r.0)
  {
    if CanEnterTrade(m, trade.price) == Admitted then
      (m.(activeTrades := m.activeTrades + [trade]), true)
    else (m, false)
  }

  /** reverse_trade: close every open trade, whatever the new signal. */
  function ReverseTrade(m: TradeManager, newSignal: string): (r: TradeManager)
    ensures r.activeTrades == [] && r.maxOrders == m.maxOrders
    ensures Inv(r)
  {
    m.(activeTrades := [])
  }

  lemma ReverseIdempotent(m: TradeManager, s1: string, s2: string)
    ensures ReverseTrade(ReverseTrade(m, s1), s2) == ReverseTrade(m, s1)
  {
  }

  function EnterRepeatedly(m: TradeManager, trade: Trade, k: nat): TradeManager
    decreases k
  {
    if k == 0 then m else EnterRepeatedly(EnterTrade(m, trade).0, trade, k - 1)
  }

  function Copies(trade: Trade, k: nat): (s: seq<Trade>)
    ensures |s| == k && forall i :: 0 <= i < k ==> s[i] == trade
  {
    seq(k, _ => trade)
  }

  /** Entering the same trade repeatedly into a book at its price fills the
      book one trade per entry while below the cap. */
  lemma {:induction false} RepeatedEntriesFill(m: TradeManager, trade: Trade, k: nat)
    requires |m.activeTrades| + k <= m.maxOrders
    requires forall i :: 0 <= i < |m.activeTrades| ==> m.activeTrades[i].price == trade.price
    ensures EnterRepeatedly(m, trade, k) == m.(activeTrades := m.activeTrades + Copies(trade, k))
    decreases k
  {
    if k > 0 {
      var m1 := EnterTrade(m, trade).0;
      assert m1 == m.(activeTrades := m.activeTrades + [trade]);
      RepeatedEntriesFill(m1, trade, k - 1);
      assert m.activeTrades + [trade] + Copies(trade, k - 1) == m.activeTrades + Copies(trade, k);
    }
  }

  /** Ten entries at one price fill a new book, and the eleventh entry, at
      any price, is refused for the cap and leaves the book as it is. */
  lemma CapReachedAfterTenEntries(trade: Trade, next: Trade)
    ensures var m := EnterRepeatedly(NewManager(), trade, DefaultMaxOrders);
      && |m.activeTrades| == DefaultMaxOrders
      && CanEnterTrade(m, next.price) == Refused(MaxOrdersReached)
      && EnterTrade(m, next) == (m, false)
  {
    RepeatedEntriesFill(NewManager(), trade, DefaultMaxOrders);
  }
}

=== FILE: training.dfy ===
/** The training loop of the RL trader as a state machine. Each processed bar
    is one episode: the counter goes up, the bar's reward is added to the
    running total, every fifth episode triggers a model refresh, and a new
    high of the total is recorded as an improvement event. The loop cycles
    through the history until the elapsed time reaches 1800 seconds or an
    exception escapes. */
module Training {
  import opened Common
  import opened Stats
  import opened Bars
  import opened MarketStates
  import opened Policy
  import opened Rewards

  const TimeLimit: real := 1800.0
  const RetrainEvery: nat := 5

  /** The trader's counters: episode count, running total reward, and the
      total at the last improvement (the high-water mark). */
  datatype Trainer = Trainer(episodes: nat, totalReward: real, prevTotalReward: real)

  function NewTrainer(): (t: Trainer)
    ensures t.episodes == 0 && t.totalReward == 0.0 && t.prevTotalReward == 0.0
  {
    Trainer(0, 0.0, 0.0)
  }

  /** An improvement event; its wall-clock timestamp is not modelled. */
  datatype Improvement = Improvement(episode: nat, improvement: real, totalReward: real)

  /** What the outside world contributes to one bar: the elapsed seconds read
      by the loop's time check, the oracle's reply, and the volatility
      estimate (None: the trader has no estimator, as in the source). */
  datatype Tick = Tick(elapsed: real, reply: OracleReply, volatility: Option<real>)

  /** retrain_model does its work only on multiples of five episodes. */
  predicate RetrainDue(episodes: nat)
  {
    episodes % RetrainEvery == 0
  }

  /** The reward of one training step: the current and the next state are
      both built from the same row, so the price never moves. */
  function EpisodeReward(cfg: RewardConfig, action: Action, row: Bar, history: seq<Bar>,
                         volatility: real): (reward: real)
    ensures action == Hold ==> reward == cfg.defaultReward
    ensures action != Hold ==> -RewardBound <= reward <= RewardBound
  {
    var state := View(GetMarketState(row, history));
    var next := View(GetMarketState(row, history));
    Reward(cfg, action, state, next, volatility)
  }

  /** With the default configuration every training step loses: a hold
      scores -0.1 and a buy or sell on an unchanged price pays the cost. */
  lemma DefaultEpisodeRewardNotPositive(action: Action, row: Bar, history: seq<Bar>, volatility: real)
    ensures EpisodeReward(DefaultConfig, action, row, history, volatility) <= 0.0
  {
    var state := View(GetMarketState(row, history));
    SameStateReward(DefaultConfig, state, volatility);
    if action == Sell {
      assert Reward(DefaultConfig, Sell, state, state, volatility)
          == Reward(DefaultConfig, Buy, state, state, volatility);
    }
  }

  /** train(row): the action is chosen with the (already incremented)
      episode count. Returns the episode reward and the trainer with the
      reward added. */
  function TrainOnRow(cfg: RewardConfig, t: Trainer, history: seq<Bar>, row: Bar, tick: Tick)
    : (r: Result<(real, Trainer), Fault>)
    ensures r.Ok? <==> |history| > 0 && !tick.reply.Crashed? && tick.volatility.Some?
    ensures r.Ok? ==> r.value.1 == t.(totalReward := t.totalReward + r.value.0)
    ensures r.Ok? ==> -RewardBound <= r.value.0 <= RewardBound || r.value.0 == cfg.defaultReward
    ensures r.Ok? && cfg == DefaultConfig ==> r.value.0 <= 0.0
    ensures r.Ok? ==> r.value.0 == EpisodeReward(cfg, GetAction(history, t.episodes, tick.reply).value,
                                                 row, history, tick.volatility.value)
    ensures r.Err? ==> r.error == (if |history| == 0 then ZeroDivision
                                   else if tick.reply.Crashed? then OracleCrashed
                                   else MissingVolatility)
  {
    match GetAction(history, t.episodes, tick.reply)
    case Err(f) => Err(f)
    case Ok(action) =>
      match tick.volatility
      case None => Err(MissingVolatility)
      case Some(vol) =>
        var reward := EpisodeReward(cfg, action, row, history, vol);
        DefaultEpisodeRewardNotPositive(action, row, history, vol);
        Ok((reward, t.(totalReward := t.totalReward + reward)))
  }

  /** Improvement in percent of the previous high (at least 1). */
  function ImprovementPercent(prev: real, total: real): (pct: real)
    requires total > prev
    ensures pct > 0.0
  {
    (total - prev) / Max2(prev, 1.0) * 100.0
  }

  datatype EpisodeOutcome =
    | Completed(trainer: Trainer, reward: real, event: Option<Improvement>, retrained: bool)
    | Raised(trainer: Trainer, fault: Fault)

  /** One iteration of the inner loop: count the episode, train on the row,
      then record an improvement if the total beats the high-water mark. */
  function Episode(cfg: RewardConfig, t: Trainer, history: seq<Bar>, row: Bar, tick: Tick)
    : (o: EpisodeOutcome)
    ensures o.Raised? <==> TrainOnRow(cfg, t.(episodes := t.episodes + 1), history, row, tick).Err?
    ensures o.Raised? ==> o.fault == TrainOnRow(cfg, t.(episodes := t.episodes + 1), history, row, tick).error
    ensures o.Completed? ==> o.reward == TrainOnRow(cfg, t.(episodes := t.episodes + 1), history, row, tick).value.0
    ensures o.Completed? ==> o.trainer.totalReward == t.totalReward + o.reward
    ensures Coherent(t, o)
  {
    var counted := t.(episodes := t.episodes + 1);
    match TrainOnRow(cfg, counted, history, row, tick)
    case Err(f) => Raised(counted, f)
    case Ok((reward, trained)) =>
      var retrained := RetrainDue(trained.episodes);
      if trained.totalReward > trained.prevTotalReward then
        var pct := ImprovementPercent(trained.prevTotalReward, trained.totalReward);
        Completed(trained.(prevTotalReward := trained.totalReward), reward,
                  Some(Improvement(trained.episodes, pct, trained.totalReward)), retrained)
      else
        Completed(trained, reward, None, retrained)
  }

  /** What an episode promises about the trainer it started from: the count
      goes up by one; a raise leaves total and mark alone; a completed
      episode moves the mark to the maximum of mark and total, records an
      event (with the new count, the new total and a positive percentage)
      exactly when the total beats the old mark, and refreshes exactly on
      multiples of five. */
  ghost predicate Coherent(t: Trainer, o: EpisodeOutcome)
  {
    && o.trainer.episodes == t.episodes + 1
    && (o.Raised? ==> o.trainer.totalReward == t.totalReward
                      && o.trainer.prevTotalReward == t.prevTotalReward)
    && (o.Completed? ==> o.trainer.prevTotalReward == Max2(t.prevTotalReward, o.trainer.totalReward))
    && (o.Completed? ==> (o.event.Some? <==> o.trainer.totalReward > t.prevTotalReward))
    && (o.Completed? && o.event.Some? ==>
          && o.event.value.episode == o.trainer.episodes
          && o.event.value.totalReward == o.trainer.totalReward
          && o.event.value.improvement > 0.0)
    && (o.Completed? ==> (o.retrained <==> RetrainDue(o.trainer.episodes)))
  }

  datatype Status = Running | HaltedByTimeLimit | Failed(fault: Fault)

  /** A training session: the trainer, the reward at the start, the
      improvement events, the total after each completed episode (the value
      the per-episode log line reports), the episodes on which a refresh was
      triggered, and the status. */
  datatype Session = Session(trainer: Trainer, startReward: real, improvements: seq<Improvement>,
                             totals: seq<real>, retrains: seq<nat>, status: Status)

  function Begin(start: Trainer): Session
  {
    Session(start, start.totalReward, [], [], [], Running)
  }

  /** Fold one episode's outcome into the session. */
  function Advance(s: Session, o: EpisodeOutcome): (r: Session)
    ensures r.trainer == o.trainer && r.startReward == s.startReward
    ensures o.Raised? ==> r == s.(trainer := o.trainer, status := Failed(o.fault))
    ensures o.Completed? ==>
              && r.status == s.status
              && |r.totals| == |s.totals| + 1 && r.totals[..|s.totals|] == s.totals
              && r.totals[|s.totals|] == o.trainer.totalReward
    ensures o.Completed? ==>
              && |r.improvements| == |s.improvements| + (if o.event.Some? then 1 else 0)
              && r.improvements[..|s.improvements|] == s.improvements
              && (o.event.Some? ==> r.improvements[|s.improvements|] == o.event.value)
    ensures o.Completed? ==>
              && |r.retrains| == |s.retrains| + (if o.retrained then 1 else 0)
              && r.retrains[..|s.retrains|] == s.retrains
              && (o.retrained ==> r.retrains[|s.retrains|] == o.trainer.episodes)
  {
    match o
    case Raised(t, f) => s.(trainer := t, status := Failed(f))
    case Completed(t, _, event, retrained) =>
      s.(trainer := t,
         totals := s.totals + [t.totalReward],
         improvements := s.improvements + (if event.Some? then [event.value] else []),
         retrains := s.retrains + (if retrained then [t.episodes] else []))
  }

  /** One clock check followed, if time remains, by one episode on the next
      row of the cycle. An empty history runs no episode: the pass ends at
      once and the outer loop checks the clock again. */
  function Step(cfg: RewardConfig, history: seq<Bar>, s: Session, tick: Tick): (r: Session)
    requires s.status == Running
    ensures r.status == HaltedByTimeLimit <==> tick.elapsed >= TimeLimit
    ensures tick.elapsed >= TimeLimit ==> r == s.(status := HaltedByTimeLimit)
    ensures tick.elapsed < TimeLimit && |history| == 0 ==> r == s
    ensures tick.elapsed < TimeLimit && |history| > 0 ==>
              var o := Episode(cfg, s.trainer, history, history[|s.totals| % |history|], tick);
              && r.trainer == o.trainer
              && (r.status == Running <==> o.Completed?)
              && (o.Raised? ==> r.status == Failed(o.fault))
              && (o.Completed? ==> r.totals == s.totals + [o.trainer.totalReward])
  {
    if tick.elapsed >= TimeLimit then s.(status := HaltedByTimeLimit)
    else if |history| == 0 then s
    else Advance(s, Episode(cfg, s.trainer, history, history[|s.totals| % |history|], tick))
  }

  /** Episode count: one per completed episode, plus the one that raised. */
  ghost predicate CountsInv(start: Trainer, s: Session)
  {
    && s.startReward == start.totalReward
    && s.trainer.episodes == start.episodes + |s.totals| + (if s.status.Failed? then 1 else 0)
    && s.trainer.totalReward == (if |s.totals| == 0 then start.totalReward else s.totals[|s.totals| - 1])
  }

  /** The high-water mark is the maximum of the starting mark and every total
      seen, and it only moves by an improvement event. */
  ghost predicate HighWaterInv(start: Trainer, s: Session)
  {
    && start.prevTotalReward <= s.trainer.prevTotalReward
    && (forall i :: 0 <= i < |s.totals| ==> s.totals[i] <= s.trainer.prevTotalReward)
    && (s.trainer.prevTotalReward == start.prevTotalReward || s.trainer.prevTotalReward in s.totals)
    && s.trainer.prevTotalReward == (if |s.improvements| == 0 then start.prevTotalReward
                                     else s.improvements[|s.improvements| - 1].totalReward)
  }

  /** Improvement events have strictly increasing totals, all above the
      starting mark, each with a positive percentage. */
  ghost predicate ImprovementsInv(start: Trainer, s: Session)
  {
    && (forall i :: 0 <= i < |s.improvements| ==>
          && start.prevTotalReward < s.improvements[i].totalReward
          && s.improvements[i].improvement > 0.0
          && start.episodes < s.improvements[i].episode <= start.episodes + |s.totals|)
    && (forall i, j :: 0 <= i < j < |s.improvements| ==>
          s.improvements[i].totalReward < s.improvements[j].totalReward)
  }

  /** Refreshes fire on exactly the multiples of five among the completed
      episodes, in order. */
  ghost predicate RetrainInv(start: Trainer, s: Session)
  {
    && (forall i :: 0 <= i < |s.retrains| ==>
          && RetrainDue(s.retrains[i])
          && start.episodes < s.retrains[i] <= start.episodes + |s.totals|)
    && (forall i, j :: 0 <= i < j < |s.retrains| ==> s.retrains[i] < s.retrains[j])
    && |s.retrains| == (start.episodes + |s.totals|) / RetrainEvery - start.episodes / RetrainEvery
  }

  ghost predicate SessionInv(start: Trainer, s: Session)
  {
    CountsInv(start, s) && HighWaterInv(start, s) && ImprovementsInv(start, s) && RetrainInv(start, s)
  }

  lemma BeginInv(start: Trainer)
    ensures SessionInv(start, Begin(start))
  {
  }

  /** Moving from c to c + 1 completed episodes adds one multiple of five
      exactly when c + 1 is one. */
  lemma NextMultiple(c: nat)
    ensures (c + 1) / RetrainEvery == c / RetrainEvery + (if RetrainDue(c + 1) then 1 else 0)
  {
    var q, r := c / RetrainEvery, c % RetrainEvery;
    if r == RetrainEvery - 1 {
      ModUnique(c + 1, RetrainEvery, q + 1, 0);
    } else {
      ModUnique(c + 1, RetrainEvery, q, r + 1);
    }
  }

  lemma AdvanceCounts(start: Trainer, s: Session, o: EpisodeOutcome)
    requires s.status == Running && CountsInv(start, s) && Coherent(s.trainer, o)
    requires o.Completed? ==> o.trainer.totalReward == s.trainer.totalReward + o.reward
    ensures CountsInv(start, Advance(s, o))
  {
  }

  lemma AdvanceHighWater(start: Trainer, s: Session, o: EpisodeOutcome)
    requires HighWaterInv(start, s) && Coherent(s.trainer, o)
    ensures HighWaterInv(start, Advance(s, o))
  {
    if o.Completed? {
      var s' := Advance(s, o);
      assert s'.totals == s.totals + [o.trainer.totalReward];
      forall i | 0 <= i < |s'.totals| ensures s'.totals[i] <= s'.trainer.prevTotalReward {
        if i < |s.totals| { assert s'.totals[i] == s.totals[i]; }
      }
      if o.event.Some? {
        assert s'.trainer.prevTotalReward in s'.totals;
      }
    }
  }

  lemma AdvanceImprovements(start: Trainer, s: Session, o: EpisodeOutcome)
    requires CountsInv(start, s) && HighWaterInv(start, s) && ImprovementsInv(start, s)
    requires s.status == Running && Coherent(s.trainer, o)
    ensures ImprovementsInv(start, Advance(s, o))
  {
  }

  lemma AdvanceRetrains(start: Trainer, s: Session, o: EpisodeOutcome)
    requires CountsInv(start, s) && RetrainInv(start, s)
    requires s.status == Running && Coherent(s.trainer, o)
    ensures RetrainInv(start, Advance(s, o))
  {
    NextMultiple(start.episodes + |s.totals|);
  }

  lemma StepInv(cfg: RewardConfig, history: seq<Bar>, start: Trainer, s: Session, tick: Tick)
    requires s.status == Running && SessionInv(start, s)
    ensures SessionInv(start, Step(cfg, history, s, tick))
  {
    if tick.elapsed < TimeLimit && |history| > 0 {
      var o := Episode(cfg, s.trainer, history, history[|s.totals| % |history|], tick);
      AdvanceCounts(start, s, o);
      AdvanceHighWater(start, s, o);
      AdvanceImprovements(start, s, o);
      AdvanceRetrains(start, s, o);
    }
  }

  /** A step only appends to the session's logs. */
  lemma StepExtends(cfg: RewardConfig, history: seq<Bar>, s: Session, tick: Tick)
    requires s.status == Running
    ensures var n := Step(cfg, history, s, tick);
      && |s.totals| <= |n.totals| && n.totals[..|s.totals|] == s.totals
      && |s.improvements| <= |n.improvements| && n.improvements[..|s.improvements|] == s.improvements
  {
  }

  /** Consume ticks while the session is running. A session still running
      when the ticks run out is the observed prefix of a longer run. */
  function Loop(cfg: RewardConfig, history: seq<Bar>, start: Trainer, s: Session, ticks: seq<Tick>)
    : (r: Session)
    requires SessionInv(start, s)
    ensures SessionInv(start, r)
    ensures |s.totals| <= |r.totals| && r.totals[..|s.totals|] == s.totals
    ensures |s.improvements| <= |r.improvements|
    ensures r.improvements[..|s.improvements|] == s.improvements
    ensures s.status != Running ==> r == s
    decreases |ticks|
  {
    if |ticks| == 0 || s.status != Running then s
    else
      StepInv(cfg, history, start, s, ticks[0]);
      StepExtends(cfg, history, s, ticks[0]);
      var next := Step(cfg, history, s, ticks[0]);
      var r := Loop(cfg, history, start, next, ticks[1..]);
      PrefixOfPrefix(s.totals, next.totals, r.totals);
      PrefixOfPrefix(s.improvements, next.improvements, r.improvements);
      r
  }

  lemma PrefixOfPrefix<T>(a: seq<T>, b: seq<T>, c: seq<T>)
    requires |a| <= |b| <= |c| && b[..|a|] == a && c[..|b|] == b
    ensures c[..|a|] == a
  {
    assert c[..|a|] == c[..|b|][..|a|];
  }

  /** run_trading from a trainer's current counters over a stream of ticks. */
  function RunTrading(cfg: RewardConfig, history: seq<Bar>, start: Trainer, ticks: seq<Tick>)
    : (r: Session)
    ensures SessionInv(start, r)
    ensures r.startReward == start.totalReward
    ensures r.trainer.prevTotalReward >= start.prevTotalReward
  {
    BeginInv(start);
    Loop(cfg, history, start, Begin(start), ticks)
  }

  /** Setting the limit to zero (every clock reading already at the limit)
      halts before the first bar: no episode runs and the counters are
      untouched. */
  lemma HaltsBeforeFirstBar(cfg: RewardConfig, history: seq<Bar>, start: Trainer, ticks: seq<Tick>)
    requires |ticks| > 0 && ticks[0].elapsed >= TimeLimit
    ensures RunTrading(cfg, history, start, ticks) == Begin(start).(status := HaltedByTimeLimit)
  {
    BeginInv(start);
  }

  function CountBelowLimit(ticks: seq<Tick>): nat
  {
    if |ticks| == 0 then 0
    else (if ticks[0].elapsed < TimeLimit then 1 else 0) + CountBelowLimit(ticks[1..])
  }

  ghost predicate ClockOrdered(ticks: seq<Tick>)
  {
    forall i, j :: 0 <= i < j < |ticks| ==> ticks[i].elapsed <= ticks[j].elapsed
  }

  /** Ticks on which an episode can complete: the oracle either answers,
      exits non-zero or times out, and a volatility estimate exists. */
  ghost predicate Healthy(ticks: seq<Tick>)
  {
    forall i :: 0 <= i < |ticks| ==> !ticks[i].reply.Crashed? && ticks[i].volatility.Some?
  }

  lemma {:induction false} NoneBelowLimit(ticks: seq<Tick>)
    requires forall i :: 0 <= i < |ticks| ==> ticks[i].elapsed >= TimeLimit
    ensures CountBelowLimit(ticks) == 0
  {
    if |ticks| > 0 {
      NoneBelowLimit(ticks[1..]);
    }
  }

  ghost predicate AllBelowLimit(ticks: seq<Tick>)
  {
    forall i :: 0 <= i < |ticks| ==> ticks[i].elapsed < TimeLimit
  }

  /** The tail of an ordered, healthy clock is ordered and healthy; after a
      reading at the limit every later one is at the limit too. */
  lemma TailOfClock(ticks: seq<Tick>)
    requires |ticks| > 0 && Healthy(ticks) && ClockOrdered(ticks)
    ensures Healthy(ticks[1..]) && ClockOrdered(ticks[1..])
    ensures ticks[0].elapsed >= TimeLimit ==> CountBelowLimit(ticks) == 0
    ensures AllBelowLimit(ticks) <==> ticks[0].elapsed < TimeLimit && AllBelowLimit(ticks[1..])
  {
    var rest := ticks[1..];
    assert forall i :: 0 <= i < |rest| ==> rest[i] == ticks[i + 1];
    assert forall i :: 0 < i < |ticks| ==> ticks[i] == rest[i - 1];
    if ticks[0].elapsed >= TimeLimit {
      assert forall i :: 0 <= i < |rest| ==> rest[i].elapsed >= TimeLimit by {
        forall i | 0 <= i < |rest| ensures rest[i].elapsed >= TimeLimit {
          assert rest[i] == ticks[i + 1];
        }
      }
      NoneBelowLimit(rest);
    }
  }

  lemma {:induction false} LoopCount(cfg: RewardConfig, history: seq<Bar>, start: Trainer, s: Session,
                                     ticks: seq<Tick>)
    requires SessionInv(start, s) && s.status == Running
    requires |history| > 0 && Healthy(ticks) && ClockOrdered(ticks)
    ensures var r := Loop(cfg, history, start, s, ticks);
      && |r.totals| == |s.totals| + CountBelowLimit(ticks)
      && r.status in {Running, HaltedByTimeLimit}
      && (r.status == Running <==> AllBelowLimit(ticks))
    decreases |ticks|
  {
    if |ticks| > 0 {
      TailOfClock(ticks);
      StepInv(cfg, history, start, s, ticks[0]);
      var next := Step(cfg, history, s, ticks[0]);
      var rest := ticks[1..];
      assert Loop(cfg, history, start, s, ticks) == Loop(cfg, history, start, next, rest);
      if ticks[0].elapsed < TimeLimit {
        HealthyStep(cfg, history, s, ticks[0]);
        LoopCount(cfg, history, start, next, rest);
      }
    }
  }

  /** Before the limit, a well-behaved tick completes exactly one episode. */
  lemma HealthyStep(cfg: RewardConfig, history: seq<Bar>, s: Session, tick: Tick)
    requires s.status == Running && |history| > 0 && tick.elapsed < TimeLimit
    requires !tick.reply.Crashed? && tick.volatility.Some?
    ensures Step(cfg, history, s, tick).status == Running
    ensures |Step(cfg, history, s, tick).totals| == |s.totals| + 1
  {
    var o := Episode(cfg, s.trainer, history, history[|s.totals| % |history|], tick);
    assert o.Completed?;
  }

  /** Intended behaviour (a volatility estimate available): with a
      non-decreasing clock and a well-behaved oracle, the run completes one
      episode for every clock reading below the limit, cycling through the
      history, and halts on the first reading at the limit. */
  lemma RunCompletesEpisodesUntilLimit(cfg: RewardConfig, history: seq<Bar>, start: Trainer,
                                       ticks: seq<Tick>)
    requires |history| > 0 && Healthy(ticks) && ClockOrdered(ticks)
    ensures var r := RunTrading(cfg, history, start, ticks);
      && |r.totals| == CountBelowLimit(ticks)
      && r.trainer.episodes == start.episodes + CountBelowLimit(ticks)
      && (r.status == HaltedByTimeLimit <==> exists i :: 0 <= i < |ticks| && ticks[i].elapsed >= TimeLimit)
  {
    BeginInv(start);
    LoopCount(cfg, history, start, Begin(start), ticks);
  }

  /** As written (no calculate_volatility on the trader): the first episode
      raises AttributeError, so the run ends after one episode with the
      total reward unchanged, no improvement and no refresh. */
  lemma RunAsWrittenStopsAfterFirstEpisode(cfg: RewardConfig, history: seq<Bar>, start: Trainer,
                                           ticks: seq<Tick>)
    requires |history| > 0 && |ticks| > 0
    requires ticks[0].elapsed < TimeLimit && !ticks[0].reply.Crashed? && ticks[0].volatility.None?
    ensures var r := RunTrading(cfg, history, start, ticks);
      && r.status == Failed(MissingVolatility)
      && r.trainer == start.(episodes := start.episodes + 1)
      && r.totals == [] && r.improvements == [] && r.retrains == []
  {
    BeginInv(start);
    var s := Begin(start);
    StepInv(cfg, history, start, s, ticks[0]);
    StepWithoutVolatility(cfg, history, s, ticks[0]);
    var next := Step(cfg, history, s, ticks[0]);
    assert Loop(cfg, history, start, s, ticks) == Loop(cfg, history, start, next, ticks[1..]);
  }

  /** Without a volatility estimate an episode is counted and then raises. */
  lemma StepWithoutVolatility(cfg: RewardConfig, history: seq<Bar>, s: Session, tick: Tick)
    requires s.status == Running && |history| > 0
    requires tick.elapsed < TimeLimit && !tick.reply.Crashed? && tick.volatility.None?
    ensures Step(cfg, history, s, tick)
         == s.(trainer := s.trainer.(episodes := s.trainer.episodes + 1), status := Failed(MissingVolatility))
  {
    var o := Episode(cfg, s.trainer, history, history[|s.totals| % |history|], tick);
    assert o == Raised(s.trainer.(episodes := s.trainer.episodes + 1), MissingVolatility);
  }

  /** With the default configuration, an episode from a total not above its
      high-water mark records no improvement and keeps the total there. */
  lemma DefaultEpisodeNeverImproves(t: Trainer, history: seq<Bar>, row: Bar, tick: Tick)
    requires t.totalReward <= t.prevTotalReward
    ensures var o := Episode(DefaultConfig, t, history, row, tick);
      && o.trainer.totalReward <= o.trainer.prevTotalReward
      && (o.Completed? ==> o.event.None?)
  {
    var counted := t.(episodes := t.episodes + 1);
    var tr := TrainOnRow(DefaultConfig, counted, history, row, tick);
    if tr.Ok? {
      assert tr.value.0 <= 0.0;
      assert tr.value.1.totalReward <= tr.value.1.prevTotalReward;
    }
  }

  /** The same for one step of the session. */
  lemma DefaultStepNeverImproves(history: seq<Bar>, s: Session, tick: Tick)
    requires s.status == Running
    requires s.trainer.totalReward <= s.trainer.prevTotalReward
    ensures var n := Step(DefaultConfig, history, s, tick);
      n.improvements == s.improvements && n.trainer.totalReward <= n.trainer.prevTotalReward
  {
    if tick.elapsed < TimeLimit && |history| > 0 {
      var row := history[|s.totals| % |history|];
      var o := Episode(DefaultConfig, s.trainer, history, row, tick);
      DefaultEpisodeNeverImproves(s.trainer, history, row, tick);
      if o.Completed? {
        assert Advance(s, o).improvements == s.improvements + [];
      }
    }
  }

  /** With the default configuration and a total not above its high-water
      mark (as for a new trader), no improvement is ever recorded. */
  lemma {:induction false} DefaultLoopNeverImproves(history: seq<Bar>, start: Trainer, s: Session,
                                                    ticks: seq<Tick>)
    requires SessionInv(start, s)
    requires s.trainer.totalReward <= s.trainer.prevTotalReward
    ensures var r := Loop(DefaultConfig, history, start, s, ticks);
      r.improvements == s.improvements && r.trainer.totalReward <= r.trainer.prevTotalReward
    decreases |ticks|
  {
    if |ticks| > 0 && s.status == Running {
      StepInv(DefaultConfig, history, start, s, ticks[0]);
      DefaultStepNeverImproves(history, s, ticks[0]);
      var next := Step(DefaultConfig, history, s, ticks[0]);
      DefaultLoopNeverImproves(history, start, next, ticks[1..]);
      assert Loop(DefaultConfig, history, start, s, ticks)
          == Loop(DefaultConfig, history, start, next, ticks[1..]);
    }
  }

  lemma DefaultRunNeverImproves(history: seq<Bar>, start: Trainer, ticks: seq<Tick>)
    requires start.totalReward <= start.prevTotalReward
    ensures RunTrading(DefaultConfig, history, start, ticks).improvements == []
  {
    BeginInv(start);
    DefaultLoopNeverImproves(history, start, Begin(start), ticks);
  }
}
